=== FILE: README.md ===
# DashFundosDeb: the debenture holdings pipeline in Dafny

`streamlit_app.py` is a Streamlit dashboard for the debentures held by
investment funds. Once a workbook has been uploaded, the script runs a fixed
sequence of pandas steps:

1. it keeps the rows for one reference date;
2. it inner-joins them on `Código` with a reference frame of funds (`filtro_cnpj`);
3. it rewrites the free-text `Remuneração` column as the first number found in it (`extrair_numeros`);
4. it drops a fixed list of columns, then every column that is entirely NaN or entirely zero;
5. it weights every row by its share of the total market value and sorts the rows by market value, largest first;
6. it builds a pivot table: for each remuneration type (`DI PERCENTUAL`, `DI SPREAD`, `IPCA SPREAD`), the market-value-weighted means of the rate, the purchase rate, the indicative rate and the duration in years (`media_ponderada`).

This project models those steps and proves what each one promises.

A frame is a `Frames.Table`: an ordered list of distinct column labels and a
sequence of rows. Each row is a map from exactly those labels to a cell, and
a cell is NaN/None (`Missing`), a number (`Num`, an exact real) or text
(`Str`). A pandas exception becomes an `Err` naming it: `KeyError` is
`MissingColumn`, a `.replace` on a non-string is `NotText`, and arithmetic on
text is `NotNumeric`. The merge's dtype check on the key is the one
exception not modelled (see "## Left out").

The modules follow the stages:

| module | file | stage |
|---|---|---|
| `RateText` | rate.dfy | `extrair_numeros`: the regular-expression scan and `float()` |
| `Frames` | frames.dfy | the table shape, column sums |
| `Reconcile` | reconcile.dfy | date filter and inner merge |
| `Prune` | prune.dfy | the drop list, `dropna(how='all')`, the all-zero filter |
| `Weighting` | weighting.dfy | market-value shares and the descending sort |
| `Aggregate` | aggregate.dfy | `media_ponderada` and `criar_pivot_table` |
| `Pipeline` | pipeline.dfy | the script that chains the stages |

Each stage is a pure function of a frame; every stage that can raise returns a `Result`, and the sort (`SortFrame`), which cannot, returns a `Table`. `Pipeline.RunPipeline`
is a method that rebinds its frame stage by stage, as the script rebinds
`df_combinado`. It is proved against the stage functions: the result is sorted,
the weights sum to one, and the pivot is `Summarize` of the final frame.

The model follows the code as written, including where it departs from what
a reader of the script might expect:
- a missing value (NaN) in a metric column drops out of the numerator of
  `media_ponderada`, but its weight still counts in the denominator
  (`Aggregate.WeightedMeanMissingValue`);
- text in a metric column does not raise when the weight beside it is NaN:
  pandas retries arithmetic on text with only the positions where neither
  side is NaN, so that row drops out (`Aggregate.TextBesideMissingWeight`);
- the pivot groups come out in the sorted order of their keys, which is the
  `groupby` default, not in the order of the `isin` list;
- `criar_pivot_table` ignores its argument and reads the global
  `df_combinado`. The two are the same frame at the only call site (line 78),
  so `Summarize` takes that frame.

## Model

| member | source | states |
|---|---|---|
| RateText.ReplaceCommas | streamlit_app.py:8 | `replace(',', '.')`: same length, no comma left, a period exactly where the text had a comma or a period, every other character unchanged |
| RateText.DigitRunEnd | streamlit_app.py:8 | a greedy `\d+` run: every character in it is a digit and the character after it is not |
| RateText.PointNumeralEnd | streamlit_app.py:8 | when it returns an end, the span is `\d*\.\d+` and is not followed by a digit |
| RateText.PointNumeralEndComplete | streamlit_app.py:8 | whenever some span at the position has the form `\d*\.\d+`, the scan finds one |
| RateText.MatchAt | streamlit_app.py:8 | a match at a position is a token of the pattern, is not followed by a digit, and after a sign is the decimal alternative |
| RateText.MatchAtNoneIff | streamlit_app.py:8 | no match at a position exactly when no prefix from that position is a token of the pattern |
| RateText.MatchAtPrefersDecimal | streamlit_app.py:8 | the first alternative wins: where a decimal token starts, the match is a decimal token |
| RateText.LeftmostMatch | streamlit_app.py:8-9 | `findall(...)[0]`: the match found is at the leftmost position where any match starts |
| RateText.UnsignedValue | streamlit_app.py:10 | `float()` of an unsigned numeral is non-negative and lies between its integer part and the next integer |
| RateText.TokenValue | streamlit_app.py:10 | a leading `-` gives a value of at most zero, and only a leading `-` gives a negative value |
| RateText.ExtractRate | streamlit_app.py:7-12 | `extrair_numeros`: a value is returned only for a text holding at least one digit |
| RateText.ExtractRateNoneIff | streamlit_app.py:7-12 | `extrair_numeros` returns `None` exactly when the text has no digit |
| RateText.ExtractRateLeftmostToken | streamlit_app.py:7-12 | a value returned is `float()` of a token of the comma-free text that is not followed by a digit, has no token starting before it, and is the decimal alternative whenever one matches at that position |
| RateText.RateExampleComma | streamlit_app.py:7-12 | `"1,75% a.a."` gives 1.75: the comma is a decimal point |
| RateText.RateExampleNegativeFraction | streamlit_app.py:7-12 | `"-0,5"` gives -0.5 |
| RateText.RateExampleSignedInteger | streamlit_app.py:7-12 | `"-5"` gives 5.0: a sign only goes with the decimal alternative |
| RateText.RateExampleTrailingPoint | streamlit_app.py:7-12 | `"1."` gives 1.0: a trailing point is not part of the match |
| RateText.RateExampleDecimalFirst | streamlit_app.py:7-12 | `"1.5"` gives `1.5`: the decimal alternative wins over the integer one |
| RateText.RateExampleNoDigit | streamlit_app.py:7-12 | `"N/D"` gives `None` |
| Frames.ZipMap | streamlit_app.py:40 | a row built from labels and cells has exactly those labels, each mapped to the cell in its position |
| Frames.ColumnSumNoNumbers | streamlit_app.py:55 | `sum()` skips NaN, so a column without a number sums to 0 |
| Frames.ColumnSumAppend | streamlit_app.py:55 | the column total of two stacked frames is the sum of their totals |
| Frames.ColumnSumPermutation | streamlit_app.py:55-59 | a column total does not depend on the order of the rows |
| Reconcile.KeepDate | streamlit_app.py:33 | the rows kept are rows of the frame that carry the reference date |
| Reconcile.KeepDateMultiset | streamlit_app.py:33 | every row on the date is kept as often as it occurs, and every other row is dropped |
| Reconcile.FilterByDate | streamlit_app.py:33 | fails with `KeyError` exactly when the date column is absent; otherwise keeps the labels and a sub-multiset of the rows, all on the date |
| Reconcile.RightRest | streamlit_app.py:40 | the right frame's labels without the join key, still distinct |
| Reconcile.LeftName | streamlit_app.py:40 | a left label gets a suffix exactly when it is not the key and the right frame has it too; the original label is a prefix of the result |
| Reconcile.RightName | streamlit_app.py:40 | a right label gets a suffix exactly when the left frame has it too; the original label is a prefix of the result |
| Reconcile.JoinColumns | streamlit_app.py:40 | the merged labels are the left labels, under their left names and in order, then one per non-key right label; the key and every unshared left label keep their names |
| Reconcile.CombineRows | streamlit_app.py:40 | a joined row has exactly the joined labels: left cells under their (suffixed) names, right non-key cells under theirs, the key from the left |
| Reconcile.PairsWithSound | streamlit_app.py:40 | every right row paired with a left row has an equal key |
| Reconcile.PairsWithComplete | streamlit_app.py:40 | every right row with a key equal to the left row's is paired with it |
| Reconcile.PairsWithOrdered | streamlit_app.py:40 | the pairs for one left row follow the right frame's row order |
| Reconcile.PairsFromSound | streamlit_app.py:40 | every pair produced from a left row on has an equal key on both sides |
| Reconcile.PairsFromComplete | streamlit_app.py:40 | every key-matching pair from a left row on is produced |
| Reconcile.PairsFromOrdered | streamlit_app.py:40 | the pairs come in row-major order: by left row, then by right row |
| Reconcile.JoinIndexers | streamlit_app.py:40 | `how='inner'`: every pair has equal keys, every pair with equal keys is listed, none twice |
| Reconcile.TakePairsRow | streamlit_app.py:40 | merged row n has the joined labels and holds the cells of its left row under their left names and of its right row under their right names |
| Reconcile.Merge | streamlit_app.py:40 | fails exactly when the key is absent on either side (`KeyError`) or suffixing leaves duplicate labels; otherwise gives a valid frame with the joined labels, one row per matching pair |
| Reconcile.MergeRowFromPair | streamlit_app.py:40 | the n-th merged row holds the cells of the n-th matching pair |
| Reconcile.MergePairsExactlyOnce | streamlit_app.py:40 | every pair of rows with equal keys yields a merged row, and no pair yields two |
| Reconcile.PairsWithCount | streamlit_app.py:40 | the pairs of one left row with key k number the right rows with key k |
| Reconcile.PairsFromCount | streamlit_app.py:40 | the pairs with key k number (left rows with k) × (right rows with k) |
| Reconcile.TakePairsCount | streamlit_app.py:40 | the merged rows with key k are as many as the listed pairs whose left row has k |
| Reconcile.JoinCount | streamlit_app.py:40 | an inner merge holds each key as often as the product of its counts on both sides |
| Reconcile.KeepDateCount | streamlit_app.py:33 | after the date filter a key occurs as often as it does on the date |
| Reconcile.JoinOnDate | streamlit_app.py:33-40 | the filter-then-merge fails exactly when the date column or the key is missing, or labels collide; a success is a valid frame |
| Reconcile.ReconcileCount | streamlit_app.py:33-40 | every key occurs (its reference count) × (its count among the holdings on the date) times |
| Reconcile.PairKeyHeld | streamlit_app.py:33-40 | every merged pair joins a reference row to a holding on the date with the same code |
| Reconcile.ReconcileDisjointEmpty | streamlit_app.py:33-40 | when no holding on the date shares a code with any reference row, the joined frame is empty |
| Prune.FilterColumns | streamlit_app.py:48-52 | `.loc[:, mask]`: a label survives exactly when it was present and passes the test, and labels stay distinct |
| Prune.RestrictRows | streamlit_app.py:48-52 | each row keeps exactly the chosen labels, with their cells unchanged |
| Prune.SelectColumns | streamlit_app.py:48-52 | a column selection is a valid frame with the same rows, restricted to the selected columns |
| Prune.FirstAbsent | streamlit_app.py:48 | finds a listed label missing from the frame exactly when one is missing |
| Prune.DropColumns | streamlit_app.py:48 | `drop(columns=...)` fails with `KeyError` exactly when a listed label is absent; otherwise keeps exactly the other columns and every cell in them |
| Prune.PruneColumns | streamlit_app.py:46-52 | fails exactly when a listed column is absent; a column survives exactly when it is not listed, has a non-NaN cell and has a cell other than 0; rows and surviving cells unchanged |
| Prune.SameColumnSameTests | streamlit_app.py:51-52 | two frames that agree on a column give it the same NaN and zero tests |
| Weighting.WeightRows | streamlit_app.py:56 | every row gains its share of the total and nothing else changes |
| Weighting.WeightRowsSum | streamlit_app.py:55-56 | the shares sum to the column total divided by the divisor |
| Weighting.AddWeights | streamlit_app.py:55-56 | fails on an absent, textual or zero-sum market-value column; otherwise adds the weight column (value / total, NaN stays NaN), changes no other cell and keeps the row count |
| Weighting.WeightsSumToOne | streamlit_app.py:55-56 | the weight column sums to 1 |
| Weighting.TermBelowSum | streamlit_app.py:55 | with no negative market value, every value is at most the total |
| Weighting.NonNegativeSum | streamlit_app.py:55 | with no negative market value, the total is non-negative |
| Weighting.WeightsInUnitInterval | streamlit_app.py:55-56 | with no negative market value, every weight lies in [0, 1] |
| Weighting.InsertByMarketValue | streamlit_app.py:59 | inserting a row adds exactly that row to the multiset of rows |
| Weighting.InsertKeepsSorted | streamlit_app.py:59 | inserting into rows sorted by market value, largest first and NaN last, keeps them sorted |
| Weighting.SortByMarketValue | streamlit_app.py:59 | `sort_values(ascending=False)`: a permutation of the rows, sorted largest first, NaN last |
| Aggregate.SumScaled | streamlit_app.py:16 | `sum()` is linear: multiplying every term by k multiplies the sum by k |
| Aggregate.SumMonotone | streamlit_app.py:16 | `sum()` is monotone: raising terms never lowers the sum |
| Aggregate.WeightedMean | streamlit_app.py:16 | the mean times the weight total gives back the weighted total |
| Aggregate.WeightedMeanSingle | streamlit_app.py:16 | the mean of one value with a non-zero weight is that value |
| Aggregate.ConstantTotal | streamlit_app.py:16 | with every value equal to c and present, the weighted total is c × the weight total |
| Aggregate.WeightedMeanConstant | streamlit_app.py:16 | a group whose values are all c has mean c |
| Aggregate.ScaledWeightTotal | streamlit_app.py:16 | scaling every weight by k scales the weight total by k |
| Aggregate.ScaledWeightedTotal | streamlit_app.py:16 | scaling every weight by k scales the weighted total by k |
| Aggregate.WeightedMeanScaleInvariant | streamlit_app.py:16 | the mean does not change when every weight is scaled by a non-zero k, so shares and raw market values give the same mean |
| Aggregate.WeightedTotalMonotone | streamlit_app.py:16 | with non-negative weights, raising every value never lowers the weighted total |
| Aggregate.LowerBoundedTotal | streamlit_app.py:16 | with non-negative weights and every value at least lo, the weighted total is at least lo times the weight total |
| Aggregate.UpperBoundedTotal | streamlit_app.py:16 | with non-negative weights and every value at most hi, the weighted total is at most hi times the weight total |
| Aggregate.WeightedMeanBetweenBounds | streamlit_app.py:16 | with non-negative weights and every value present and in [lo, hi], the mean lies in [lo, hi] |
| Aggregate.NonNegativeWeightTotal | streamlit_app.py:16 | non-negative weights have a non-negative total |
| Aggregate.WeightedMeanMissingValue | streamlit_app.py:16 | a NaN value keeps its weight in the denominator: [NaN, 10] weighted [0.5, 0.5] gives 5, not 10 |
| Aggregate.GroupRows | streamlit_app.py:63-66 | a group holds exactly the rows of its category, from the frame, with the frame's labels |
| Aggregate.GroupRowsMultiset | streamlit_app.py:63-66 | a group holds each row of its category exactly as many times as the frame does, and no other row |
| Aggregate.GroupRowsConcat | streamlit_app.py:63-66 | the group of a category in two stacked frames is its group in the first followed by its group in the second |
| Aggregate.GroupsFrom | streamlit_app.py:63-66 | `isin` then `groupby`: one non-empty group per listed category that occurs, each holding that category's rows |
| Aggregate.GroupsFromOrdered | streamlit_app.py:66 | the groups follow the category order, each once |
| Aggregate.GroupsFromSameGroups | streamlit_app.py:63-66 | frames whose category groups agree give the same groups |
| Aggregate.MetricFailure | streamlit_app.py:16-72 | metric by metric, the lambda raises `KeyError` for an absent metric column and then for an absent weight column, and `TypeError` for text in a metric beside a weight that is not NaN (the masked arithmetic skips the others) or for text in the weight column; it succeeds exactly when none of these occurs |
| Aggregate.TextBesideMissingWeight | streamlit_app.py:16-71 | a text duration whose weight is NaN is skipped rather than raised: a group of that row and a row of weight 1 and 500 days averages 500/252 years |
| Aggregate.GroupSummary | streamlit_app.py:67-71 | the pivot row carries its category, each average times the weight total gives back that metric's weighted total, and the duration is that average divided by 252 |
| Aggregate.FirstFailure | streamlit_app.py:66-72 | `apply` raises exactly when some group's lambda raises, with that group's exception |
| Aggregate.SummaryRows | streamlit_app.py:66-73 | one pivot row per group, with the group's key and weighted means; fails exactly when some group's weights sum to 0 |
| Aggregate.Summarize | streamlit_app.py:62-75 | a missing category column raises `KeyError`; every failure is one of the pivot's exceptions, a missing or text weight column included |
| Aggregate.SummarizeNoWeightColumn | streamlit_app.py:16-68 | with the category and metric columns present but no weight column, and a listed category occurring, the pivot raises `KeyError` for the weight column |
| Aggregate.SummarizeSucceeds | streamlit_app.py:62-75 | the pivot succeeds exactly when the category column exists and every listed category that occurs has its metrics and its weight column present, no text in the weight column, no metric text beside a weight that is not NaN, and weights not summing to 0 |
| Aggregate.SummarizeCategoriesListed | streamlit_app.py:63-73 | every pivot row is of a listed category that occurs in the frame |
| Aggregate.SummarizeCategoriesPresent | streamlit_app.py:63-73 | every listed category that occurs in the frame has a pivot row |
| Aggregate.SummarizeOrdered | streamlit_app.py:66-73 | the pivot rows follow the sorted category order, each category once |
| Aggregate.SummarizeAverages | streamlit_app.py:67-71 | each pivot row holds the weight-column means of its category's rows, the duration divided by 252 |
| Aggregate.Inserted | streamlit_app.py:63 | the frame with one row inserted is valid, one row longer, and equal to the original around the inserted row |
| Aggregate.GroupRowsInsertOther | streamlit_app.py:63-66 | a row of another category inserted anywhere leaves a category's group unchanged |
| Aggregate.SummarizeSameGroups | streamlit_app.py:63-75 | frames with the same labels whose listed categories have the same groups give the same pivot |
| Aggregate.SummarizeIgnoresOtherCategories | streamlit_app.py:63 | inserting a row of any other category, at any position, leaves the pivot unchanged |
| Pipeline.RateCell | streamlit_app.py:43 | a text cell becomes NaN exactly when it has no digit, and otherwise the number `extrair_numeros` reads |
| Pipeline.NormaliseRates | streamlit_app.py:43 | fails with `KeyError` or `AttributeError` exactly when the rate column is absent or holds a non-text cell; otherwise rewrites only that column and leaves no text in it |
| Pipeline.CleanFrame | streamlit_app.py:43-52 | the method gives the rate rewrite followed by the pruning: the row count is kept, each surviving rate cell is `extrair_numeros` of the text it replaced, every other surviving cell is unchanged, no label is added, and an empty frame loses every column |
| Pipeline.SortFrame | streamlit_app.py:59 | the sorted frame is a valid permutation of the rows, sorted by market value |
| Pipeline.WeighFrame | streamlit_app.py:55-59 | the method gives the weighting followed by the sort: it fails exactly when weighting fails, keeps the weighted frame's labels and rows as a multiset, the result is sorted by market value and its weights sum to 1 |
| Pipeline.RunPipeline | streamlit_app.py:33-78 | the method runs the script's stages in order (filter and merge, rate rewrite, pruning, weighting, sort, pivot): join errors propagate, the row count is the join's, an empty join fails, and a result is sorted, has weights summing to 1 and carries the pivot of the final frame |
| Pipeline.EmptyFramePrunesAll | streamlit_app.py:51 | on a frame without rows `dropna(how='all')` leaves no column |
| Pipeline.SortKeepsFrame | streamlit_app.py:59 | reordering the rows keeps every row keyed by the frame's labels |

## Left out

- The Streamlit page is not part of this model: the upload widget, titles, tables, the Excel export and the download button. Reading the workbook (`read_excel`) and `set_option` are left out too. The pipeline starts from frames given as parameters.
- `filtro_cnpj` is never defined in the script. The reference frame is a parameter of `JoinOnDate` and `RunPipeline`.
- The reference date is hard-coded as the text `'11/10/2024'` in the script; here it is the parameter `date`. A date cell that `read_excel` parsed as a timestamp is not modelled: cells are NaN, numbers or text.
- Numbers are exact reals. Floating-point rounding in `float()`, in the sums and in the divisions is not modelled.
- Zero totals: pandas gives inf or NaN when the market values sum to 0 (line 56), and NaN when a group's weights sum to 0 (line 16). The model stops with `ZeroMarketValue` or `ZeroWeightSum` instead.
- RateText.ExtractRate: digits are ASCII only, while Python's `\d` also matches other Unicode decimal digits.
- Weighting.SortByMarketValue: the default `sort_values` (quicksort) is not stable, so pandas leaves the order of rows with equal market values unspecified. The model keeps such rows in frame order, and its contract promises only sortedness and permutation.
- A frame with repeated column labels cannot be represented, because rows are maps. A merge whose suffixed labels still collide stops with `DuplicateColumns`.
- Reconcile.Merge orders the output rows left row first, then right row, as recent pandas does. Older pandas versions grouped the output by key.
- Columns of mixed numbers and text outside the metric columns pass through unchanged. Their dtype is not tracked.
- Reconcile.Merge, Reconcile.JoinOnDate: column dtypes are not tracked, so the `ValueError` pandas raises at line 40 when a numeric `Código` column is merged with a text one is not modelled; the model compares key cells one by one and pairs exactly the equal ones (a number never equals a text), so such a merge gives the rows whose keys are equal cells, an empty frame when one side is all numbers and the other all text.
- Aggregate.Summarize: pandas' `groupby(...).apply` on an empty selection gives an empty frame; the model gives an empty pivot.

=== FILE: aggregate.dfy ===
/** `media_ponderada` (line 16) and `criar_pivot_table` (lines 62-75). */
module Aggregate {
  import opened Wrappers
  import opened Frames
  import opened Weighting

  const CategoryColumn := "Tipo Remuneração"
  const RateColumn := "Remuneração"
  const PurchaseRateColumn := "Taxa de compra"
  const IndicativeRateColumn := "Taxa indicativa"
  const DurationColumn := "Duration"
  const Metrics: seq<string> := [RateColumn, PurchaseRateColumn, IndicativeRateColumn, DurationColumn]

  /** Line 71: trading days per year. */
  const TradingDaysPerYear: real := 252.0

  /** The categories `isin` keeps, in the order pandas' `groupby` sorts its keys. */
  const Categories: seq<string> := ["DI PERCENTUAL", "DI SPREAD", "IPCA SPREAD"]

  /** `sum()` over numbers. */
  function Sum(xs: seq<real>): real
  {
    if xs == [] then 0.0 else xs[0] + Sum(xs[1..])
  }

  /** `grupo[v] * grupo[w]` row by row; a product with NaN is NaN, which the
      sum then skips, so it counts as 0. */
  function Products(vs: seq<Cell>, ws: seq<Cell>): (ps: seq<real>)
    requires |vs| == |ws|
    ensures |ps| == |vs|
  {
    seq(|vs|, i requires 0 <= i < |vs| => if vs[i].Num? && ws[i].Num? then vs[i].x * ws[i].x else 0.0)
  }

  /** `grupo[w]` as the sum sees it: NaN weights count as 0. */
  function Weights(ws: seq<Cell>): (xs: seq<real>)
    ensures |xs| == |ws|
  {
    seq(|ws|, i requires 0 <= i < |ws| => NumOrZero(ws[i]))
  }

  /** `(grupo[v] * grupo[w]).sum()` */
  function WeightedTotal(vs: seq<Cell>, ws: seq<Cell>): real
    requires |vs| == |ws|
  {
    Sum(Products(vs, ws))
  }

  /** `grupo[w].sum()`: NaN weights are skipped, the others all count. */
  function WeightTotal(ws: seq<Cell>): real
  {
    Sum(Weights(ws))
  }

  /** `media_ponderada`, for a group whose weights do not sum to zero. */
  function WeightedMean(vs: seq<Cell>, ws: seq<Cell>): (r: real)
    requires |vs| == |ws| && WeightTotal(ws) != 0.0
    ensures r * WeightTotal(ws) == WeightedTotal(vs, ws)
  {
    WeightedTotal(vs, ws) / WeightTotal(ws)
  }

  lemma Distributes(k: real, a: real, b: real, sum: real)
    requires sum == a + b
    ensures k * sum == k * a + k * b
  {
  }

  /** Multiplying every term by `k` multiplies the sum by `k`. */
  lemma {:induction false} SumScaled(xs: seq<real>, ys: seq<real>, k: real)
    requires |ys| == |xs| && forall i :: 0 <= i < |xs| ==> ys[i] == k * xs[i]
    ensures Sum(ys) == k * Sum(xs)
  {
    if xs != [] {
      SumScaled(xs[1..], ys[1..], k);
      Distributes(k, xs[0], Sum(xs[1..]), Sum(xs));
    }
  }

  /** Raising terms never lowers the sum. */
  lemma {:induction false} SumMonotone(xs: seq<real>, ys: seq<real>)
    requires |ys| == |xs| && forall i :: 0 <= i < |xs| ==> xs[i] <= ys[i]
    ensures Sum(xs) <= Sum(ys)
  {
    if xs != [] {
      SumMonotone(xs[1..], ys[1..]);
    }
  }

  lemma {:induction false} SumNonNegative(xs: seq<real>)
    requires forall i :: 0 <= i < |xs| ==> xs[i] >= 0.0
    ensures Sum(xs) >= 0.0
  {
    if xs != [] {
      SumNonNegative(xs[1..]);
    }
  }

  /** A one-row group averages to that row's own value. */
  lemma WeightedMeanSingle(v: real, w: real)
    requires w != 0.0
    ensures WeightTotal([Num(w)]) == w
    ensures WeightedMean([Num(v)], [Num(w)]) == v
  {
    var xs, ps := Weights([Num(w)]), Products([Num(v)], [Num(w)]);
    assert xs == [xs[0]] && xs[0] == w;
    assert ps == [ps[0]] && ps[0] == v * w;
    SumSingle(xs);
    SumSingle(ps);
    CancelFactor(v, w, v * w);
  }

  lemma SumSingle(xs: seq<real>)
    requires |xs| == 1
    ensures Sum(xs) == xs[0]
  {
    assert xs[1..] == [];
  }

  /** A group whose values are all `c` has `c` times the weight total as its
      weighted total. */
  lemma ConstantTotal(vs: seq<Cell>, ws: seq<Cell>, c: real)
    requires |vs| == |ws|
    requires forall i :: 0 <= i < |vs| ==> vs[i] == Num(c)
    ensures WeightedTotal(vs, ws) == c * WeightTotal(ws)
  {
    var ps, xs := Products(vs, ws), Weights(ws);
    forall i | 0 <= i < |vs|
      ensures ps[i] == c * xs[i]
    {
      if !ws[i].Num? {
        ZeroProduct(c);
      }
    }
    SumScaled(xs, ps, c);
  }

  lemma ZeroProduct(c: real)
    ensures c * 0.0 == 0.0
  {
  }

  /** A group whose values are all `c` averages to `c`. */
  lemma WeightedMeanConstant(vs: seq<Cell>, ws: seq<Cell>, c: real)
    requires |vs| == |ws| && WeightTotal(ws) != 0.0
    requires forall i :: 0 <= i < |vs| ==> vs[i] == Num(c)
    ensures WeightedMean(vs, ws) == c
  {
    ConstantTotal(vs, ws, c);
    CancelFactor(c, WeightTotal(ws), WeightedTotal(vs, ws));
  }

  lemma CancelFactor(c: real, w: real, cw: real)
    requires w != 0.0 && cw == c * w
    ensures cw / w == c
  {
  }

  /** Every weight multiplied by `k`. */
  function ScaleWeights(ws: seq<Cell>, k: real): (r: seq<Cell>)
    ensures |r| == |ws|
  {
    seq(|ws|, i requires 0 <= i < |ws| => if ws[i].Num? then Num(k * ws[i].x) else Missing)
  }

  lemma ScaledWeightTotal(ws: seq<Cell>, k: real)
    ensures WeightTotal(ScaleWeights(ws, k)) == k * WeightTotal(ws)
  {
    var xs, ys := Weights(ws), Weights(ScaleWeights(ws, k));
    forall i | 0 <= i < |ws|
      ensures ys[i] == k * xs[i]
    {
      if !ws[i].Num? {
        ZeroProduct(k);
      }
    }
    SumScaled(xs, ys, k);
  }

  lemma ScaledWeightedTotal(vs: seq<Cell>, ws: seq<Cell>, k: real)
    requires |vs| == |ws|
    ensures WeightedTotal(vs, ScaleWeights(ws, k)) == k * WeightedTotal(vs, ws)
  {
    var xs, ys := Products(vs, ws), Products(vs, ScaleWeights(ws, k));
    forall i | 0 <= i < |vs|
      ensures ys[i] == k * xs[i]
    {
      if vs[i].Num? && ws[i].Num? {
        Commutes(vs[i].x, k, ws[i].x);
      } else {
        ZeroProduct(k);
      }
    }
    SumScaled(xs, ys, k);
  }

  lemma Commutes(v: real, k: real, w: real)
    ensures v * (k * w) == k * (v * w)
  {
  }

  lemma ScaledQuotient(a: real, b: real, k: real, scaledA: real, scaledB: real)
    requires b != 0.0 && k != 0.0 && scaledA == k * a && scaledB == k * b
    ensures scaledB != 0.0 && scaledA / scaledB == a / b
  {
    var q := a / b;
    assert a == q * b;
    assert scaledA == q * scaledB;
  }

  /** Multiplying every weight by the same non-zero factor leaves the
      weighted average unchanged. */
  lemma WeightedMeanScaleInvariant(vs: seq<Cell>, ws: seq<Cell>, k: real)
    requires |vs| == |ws| && WeightTotal(ws) != 0.0 && k != 0.0
    ensures WeightTotal(ScaleWeights(ws, k)) != 0.0
    ensures WeightedMean(vs, ScaleWeights(ws, k)) == WeightedMean(vs, ws)
  {
    var scaled := ScaleWeights(ws, k);
    ScaledWeightTotal(ws, k);
    ScaledWeightedTotal(vs, ws, k);
    ScaledQuotient(WeightedTotal(vs, ws), WeightTotal(ws), k, WeightedTotal(vs, scaled), WeightTotal(scaled));
  }

  /** Every value is present and at least `lo`. */
  predicate AtLeast(vs: seq<Cell>, lo: real)
  {
    forall i :: 0 <= i < |vs| ==> vs[i].Num? && lo <= vs[i].x
  }

  /** Every value is present and at most `hi`. */
  predicate AtMost(vs: seq<Cell>, hi: real)
  {
    forall i :: 0 <= i < |vs| ==> vs[i].Num? && vs[i].x <= hi
  }

  /** No weight is negative (NaN weights count as 0). */
  predicate NonNegativeWeights(ws: seq<Cell>)
  {
    forall i :: 0 <= i < |ws| ==> NumOrZero(ws[i]) >= 0.0
  }

  /** Every value of `us` present and at least the matching value of `vs`. */
  predicate Dominates(us: seq<Cell>, vs: seq<Cell>)
  {
    |us| == |vs| && forall i :: 0 <= i < |vs| ==> vs[i].Num? && us[i].Num? && vs[i].x <= us[i].x
  }

  /** A group of `n` rows that all hold `c`. */
  function Constant(n: nat, c: real): (r: seq<Cell>)
    ensures |r| == n && forall i :: 0 <= i < n ==> r[i] == Num(c)
  {
    seq(n, _ => Num(c))
  }

  lemma MultiplyMonotone(v: real, u: real, w: real)
    requires v <= u && w >= 0.0
    ensures v * w <= u * w
  {
  }

  /** Under non-negative weights, raising values never lowers the weighted
      total. */
  lemma WeightedTotalMonotone(vs: seq<Cell>, us: seq<Cell>, ws: seq<Cell>)
    requires |vs| == |ws| && Dominates(us, vs) && NonNegativeWeights(ws)
    ensures WeightedTotal(vs, ws) <= WeightedTotal(us, ws)
  {
    var xs, ys := Products(vs, ws), Products(us, ws);
    forall i | 0 <= i < |vs|
      ensures xs[i] <= ys[i]
    {
      if ws[i].Num? {
        assert ws[i].x == NumOrZero(ws[i]);
        MultiplyMonotone(vs[i].x, us[i].x, ws[i].x);
      }
    }
    SumMonotone(xs, ys);
  }

  lemma LowerBoundedTotal(vs: seq<Cell>, ws: seq<Cell>, lo: real)
    requires |vs| == |ws| && AtLeast(vs, lo) && NonNegativeWeights(ws)
    ensures lo * WeightTotal(ws) <= WeightedTotal(vs, ws)
  {
    var floor := Constant(|vs|, lo);
    ConstantTotal(floor, ws, lo);
    WeightedTotalMonotone(floor, vs, ws);
  }

  lemma UpperBoundedTotal(vs: seq<Cell>, ws: seq<Cell>, hi: real)
    requires |vs| == |ws| && AtMost(vs, hi) && NonNegativeWeights(ws)
    ensures WeightedTotal(vs, ws) <= hi * WeightTotal(ws)
  {
    var ceiling := Constant(|vs|, hi);
    ConstantTotal(ceiling, ws, hi);
    WeightedTotalMonotone(vs, ceiling, ws);
  }

  lemma DivideLower(lo: real, n: real, d: real)
    requires lo * d <= n && d > 0.0
    ensures lo <= n / d
  {
  }

  lemma DivideUpper(n: real, hi: real, d: real)
    requires n <= hi * d && d > 0.0
    ensures n / d <= hi
  {
  }

  /** With non-negative weights and every value present, the weighted
      average lies between any lower and upper bound of the values. */
  lemma WeightedMeanBetweenBounds(vs: seq<Cell>, ws: seq<Cell>, lo: real, hi: real)
    requires |vs| == |ws| && WeightTotal(ws) != 0.0
    requires AtLeast(vs, lo) && AtMost(vs, hi) && NonNegativeWeights(ws)
    ensures lo <= WeightedMean(vs, ws) <= hi
  {
    var n, d := WeightedTotal(vs, ws), WeightTotal(ws);
    LowerBoundedTotal(vs, ws, lo);
    UpperBoundedTotal(vs, ws, hi);
    NonNegativeWeightTotal(ws);
    DivideLower(lo, n, d);
    DivideUpper(n, hi, d);
  }

  lemma NonNegativeWeightTotal(ws: seq<Cell>)
    requires NonNegativeWeights(ws)
    ensures WeightTotal(ws) >= 0.0
  {
    SumNonNegative(Weights(ws));
  }

  /** A NaN value drops out of the numerator only: its weight still counts
      in the denominator, so the average is pulled towards 0 and can fall
      below every present value. */
  lemma WeightedMeanMissingValue()
    ensures WeightTotal([Num(0.5), Num(0.5)]) == 1.0
    ensures WeightedMean([Missing, Num(10.0)], [Num(0.5), Num(0.5)]) == 5.0
  {
    assert Weights([Num(0.5), Num(0.5)]) == [0.5, 0.5];
    assert [0.5, 0.5][1..] == [0.5];
    assert Products([Missing, Num(10.0)], [Num(0.5), Num(0.5)]) == [0.0, 5.0];
    assert [0.0, 5.0][1..] == [5.0];
  }

  /** One row of the pivot table. */
  datatype SummaryRow = SummaryRow(
    category: string, rate: real, purchaseRate: real, indicativeRate: real, durationYears: real)

  predicate InCategory(row: Row, c: string)
  {
    CategoryColumn in row && row[CategoryColumn] == Str(c)
  }

  /** Every row is keyed by exactly `cols`: the row half of `Table.Valid`,
      stated on a bare sequence because a group (`GroupRows`) is a run of a
      frame's rows without a frame of its own. */
  predicate Keyed(rows: seq<Row>, cols: seq<string>)
  {
    forall i :: 0 <= i < |rows| ==> rows[i].Keys == ColumnSet(cols)
  }

  /** The rows of category `c`, in table order. */
  function GroupRows(rows: seq<Row>, c: string): (r: seq<Row>)
    ensures forall i :: 0 <= i < |r| ==> r[i] in rows && InCategory(r[i], c)
    ensures forall i :: 0 <= i < |rows| && InCategory(rows[i], c) ==> rows[i] in r
    ensures forall cols :: Keyed(rows, cols) ==> Keyed(r, cols)
  {
    if rows == [] then []
    else
      var rest := GroupRows(rows[1..], c);
      assert forall i :: 1 <= i < |rows| ==> rows[i] == rows[1..][i - 1];
      (if InCategory(rows[0], c) then [rows[0]] else []) + rest
  }

  /** Grouping splits over concatenation: the group of `c` in `a + b` is
      its group in `a` followed by its group in `b`. */
  lemma {:induction false} GroupRowsConcat(a: seq<Row>, b: seq<Row>, c: string)
    ensures GroupRows(a + b, c) == GroupRows(a, c) + GroupRows(b, c)
  {
    if a == [] {
      assert a + b == b;
    } else {
      assert (a + b)[1..] == a[1..] + b;
      GroupRowsConcat(a[1..], b, c);
    }
  }

  /** Grouping neither drops nor repeats a row: each row of category `c`
      occurs in its group as often as in the frame, and no other row does. */
  lemma {:induction false} GroupRowsMultiset(rows: seq<Row>, c: string)
    ensures forall x :: multiset(GroupRows(rows, c))[x] == if InCategory(x, c) then multiset(rows)[x] else 0
  {
    if rows != [] {
      GroupRowsMultiset(rows[1..], c);
      assert rows == [rows[0]] + rows[1..];
      assert multiset(rows) == multiset{rows[0]} + multiset(rows[1..]);
    }
  }

  lemma CategoriesDistinct()
    ensures Distinct(Categories)
  {
  }

  /** `isin(...)` then `groupby`: the non-empty groups of the listed
      categories, in the listed order. */
  function GroupsFrom(cats: seq<string>, rows: seq<Row>): (gs: seq<(string, seq<Row>)>)
    ensures forall n :: 0 <= n < |gs| ==> gs[n].1 == GroupRows(rows, gs[n].0) && gs[n].1 != []
    ensures forall n :: 0 <= n < |gs| ==> gs[n].0 in cats
    ensures forall c :: c in cats && GroupRows(rows, c) != [] ==> (c, GroupRows(rows, c)) in gs
  {
    if cats == [] then []
    else
      var g := GroupRows(rows, cats[0]);
      (if g == [] then [] else [(cats[0], g)]) + GroupsFrom(cats[1..], rows)
  }

  /** The position of `c` in `cats`. */
  function IndexIn(cats: seq<string>, c: string): (i: nat)
    requires c in cats
    ensures i < |cats| && cats[i] == c && c !in cats[..i]
  {
    if cats[0] == c then 0
    else
      var i := 1 + IndexIn(cats[1..], c);
      assert cats[..i] == [cats[0]] + cats[1..][..i - 1];
      i
  }

  lemma DistinctTail(cats: seq<string>, x: string)
    requires cats != [] && Distinct(cats) && x in cats[1..]
    ensures x != cats[0] && Distinct(cats[1..])
  {
    var k :| 0 <= k < |cats[1..]| && cats[1..][k] == x;
    assert cats[k + 1] == x;
  }

  /** Every group is of a listed category, and the groups follow the order
      of the list, each category at most once. */
  predicate OrderedBy(cats: seq<string>, gs: seq<(string, seq<Row>)>)
  {
    (forall n :: 0 <= n < |gs| ==> gs[n].0 in cats)
    && forall n, m :: 0 <= n < m < |gs| ==> IndexIn(cats, gs[n].0) < IndexIn(cats, gs[m].0)
  }

  lemma IndexInTail(cats: seq<string>, x: string)
    requires cats != [] && Distinct(cats) && x in cats[1..]
    ensures x in cats && IndexIn(cats, x) == 1 + IndexIn(cats[1..], x)
  {
    DistinctTail(cats, x);
  }

  /** Groups ordered by the tail of the list are ordered by the whole list,
      and none of them is of its first category. */
  lemma OrderedShift(cats: seq<string>, gs: seq<(string, seq<Row>)>)
    requires cats != [] && Distinct(cats) && OrderedBy(cats[1..], gs)
    ensures OrderedBy(cats, gs)
    ensures forall n :: 0 <= n < |gs| ==> gs[n].0 in cats && 0 < IndexIn(cats, gs[n].0)
  {
    forall n | 0 <= n < |gs|
      ensures gs[n].0 in cats && IndexIn(cats, gs[n].0) == 1 + IndexIn(cats[1..], gs[n].0)
    {
      IndexInTail(cats, gs[n].0);
    }
  }

  /** A group of the first category goes in front of groups of later ones. */
  lemma OrderedCons(cats: seq<string>, g: seq<Row>, gs: seq<(string, seq<Row>)>)
    requires cats != [] && OrderedBy(cats, gs)
    requires forall n :: 0 <= n < |gs| ==> 0 < IndexIn(cats, gs[n].0)
    ensures OrderedBy(cats, [(cats[0], g)] + gs)
  {
    var all := [(cats[0], g)] + gs;
    assert IndexIn(cats, cats[0]) == 0;
    forall n | 0 <= n < |all|
      ensures all[n].0 in cats
    {
      if n > 0 {
        assert all[n] == gs[n - 1];
      }
    }
    forall n, m | 0 <= n < m < |all|
      ensures IndexIn(cats, all[n].0) < IndexIn(cats, all[m].0)
    {
      assert all[m] == gs[m - 1];
      if n > 0 {
        assert all[n] == gs[n - 1];
      }
    }
  }

  /** The groups come out in the order of the category list, each once. */
  lemma {:induction false} GroupsFromOrdered(cats: seq<string>, rows: seq<Row>)
    requires Distinct(cats)
    ensures OrderedBy(cats, GroupsFrom(cats, rows))
  {
    if cats != [] {
      assert Distinct(cats[1..]);
      GroupsFromOrdered(cats[1..], rows);
      var rest := GroupsFrom(cats[1..], rows);
      OrderedShift(cats, rest);
      var g := GroupRows(rows, cats[0]);
      if g == [] {
        assert GroupsFrom(cats, rows) == rest;
      } else {
        assert GroupsFrom(cats, rows) == [(cats[0], g)] + rest;
        OrderedCons(cats, g, rest);
      }
    }
  }

  /** Groups that agree category by category give the same group list. */
  lemma {:induction false} GroupsFromSameGroups(cats: seq<string>, a: seq<Row>, b: seq<Row>)
    requires forall c :: c in cats ==> GroupRows(a, c) == GroupRows(b, c)
    ensures GroupsFrom(cats, a) == GroupsFrom(cats, b)
  {
    if cats != [] {
      assert cats[0] in cats;
      GroupsFromSameGroups(cats[1..], a, b);
    }
  }

  /** `grupo[col]`; a column the group lacks reads as all NaN (it is only
      read once `MetricFailure` has ruled that out). */
  function Column(rows: seq<Row>, col: string): (r: seq<Cell>)
    ensures |r| == |rows|
    ensures forall i :: 0 <= i < |rows| && col in rows[i] ==> r[i] == rows[i][col]
  {
    seq(|rows|, i requires 0 <= i < |rows| => if col in rows[i] then rows[i][col] else Missing)
  }

  /** No cell of column `col` in the group is text. */
  predicate NoText(g: seq<Row>, col: string)
    requires HasColumn(g, col)
  {
    forall i :: 0 <= i < |g| ==> !g[i][col].Str?
  }

  /** Some row holds text in column `m` beside a weight that is not NaN. */
  predicate WeightedText(g: seq<Row>, m: string)
    requires HasColumn(g, m) && HasColumn(g, WeightColumn)
  {
    exists i :: 0 <= i < |g| && g[i][m].Str? && !g[i][WeightColumn].Missing?
  }

  /** What the lambda of lines 67-72 raises for a group, metric by metric:
      `grupo[valor_col]` then `grupo[peso_col]` raise `KeyError` for an
      absent column. On text the product falls back to pandas' masked
      arithmetic, which multiplies only where neither side is NaN, so it
      raises `TypeError` for text beside a weight that is not NaN; text in
      the weight column fails the product or `grupo[peso_col].sum()`. */
  function MetricFailure(cols: seq<string>, g: seq<Row>, ms: seq<string>): (r: Option<Failure>)
    requires Keyed(g, cols)
    ensures r.None? <==> ms == [] || (WeightColumn in cols && NoText(g, WeightColumn)
                                      && forall m :: m in ms ==> m in cols && !WeightedText(g, m))
    ensures r.Some? ==> (exists m :: m in ms && (r.value == MissingColumn(m) || r.value == NotNumeric(m)))
                        || r.value == MissingColumn(WeightColumn) || r.value == NotNumeric(WeightColumn)
    ensures ms != [] && ms[0] in cols && WeightColumn !in cols ==> r == Some(MissingColumn(WeightColumn))
  {
    if ms == [] then None
    else if ms[0] !in cols then Some(MissingColumn(ms[0]))
    else if WeightColumn !in cols then Some(MissingColumn(WeightColumn))
    else if WeightedText(g, ms[0]) then Some(NotNumeric(ms[0]))
    else if !NoText(g, WeightColumn) then Some(NotNumeric(WeightColumn))
    else MetricFailure(cols, g, ms[1..])
  }

  lemma SumPair(x: real, y: real)
    ensures Sum([x, y]) == x + y
  {
    assert [x, y][1..] == [y];
    assert [y][1..] == [];
    assert Sum([y]) == y + Sum([]);
    assert Sum([x, y]) == x + Sum([y]);
  }

  /** A row lasting "N/D" days whose market value, and so weight, is NaN. */
  function UnweightedTextRow(): Row
  {
    map[RateColumn := Num(1.0), PurchaseRateColumn := Num(1.0), IndicativeRateColumn := Num(1.0),
        DurationColumn := Str("N/D"), WeightColumn := Missing]
  }

  /** A row lasting 500 days with weight 1. */
  function WeightedRow(): Row
  {
    map[RateColumn := Num(1.0), PurchaseRateColumn := Num(1.0), IndicativeRateColumn := Num(1.0),
        DurationColumn := Num(500.0), WeightColumn := Num(1.0)]
  }

  /** A text duration whose weight is NaN is skipped: with the other row
      weighted 1 and lasting 500 days, the group averages 500/252 years. */
  lemma TextBesideMissingWeight()
    ensures Keyed([UnweightedTextRow(), WeightedRow()], Metrics + [WeightColumn])
    ensures MetricFailure(Metrics + [WeightColumn], [UnweightedTextRow(), WeightedRow()], Metrics).None?
    ensures WeightTotal(Column([UnweightedTextRow(), WeightedRow()], WeightColumn)) == 1.0
    ensures GroupSummary("DI SPREAD", [UnweightedTextRow(), WeightedRow()]).durationYears == 500.0 / 252.0
  {
    var g := [UnweightedTextRow(), WeightedRow()];
    var cols := Metrics + [WeightColumn];
    assert ColumnSet(cols) == g[0].Keys == g[1].Keys;
    assert NoText(g, WeightColumn);
    forall m | m in Metrics
      ensures !WeightedText(g, m)
    {
    }
    ExampleTotals(g);
  }

  lemma ExampleTotals(g: seq<Row>)
    requires g == [UnweightedTextRow(), WeightedRow()]
    ensures WeightTotal(Column(g, WeightColumn)) == 1.0
    ensures WeightedTotal(Column(g, DurationColumn), Column(g, WeightColumn)) == 500.0
  {
    var ws := Column(g, WeightColumn);
    assert ws == [Missing, Num(1.0)];
    assert Weights(ws) == [0.0, 1.0];
    SumPair(0.0, 1.0);
    var ds := Column(g, DurationColumn);
    assert ds == [Str("N/D"), Num(500.0)];
    assert Products(ds, ws) == [0.0, 500.0];
    SumPair(0.0, 500.0);
  }

  /** The first pandas exception over the groups, in group order. */
  function FirstFailure(cols: seq<string>, gs: seq<(string, seq<Row>)>): (r: Option<Failure>)
    requires forall n :: 0 <= n < |gs| ==> Keyed(gs[n].1, cols)
    ensures r.None? <==> forall n :: 0 <= n < |gs| ==> MetricFailure(cols, gs[n].1, Metrics).None?
    ensures r.Some? ==> exists n :: 0 <= n < |gs| && r == MetricFailure(cols, gs[n].1, Metrics)
  {
    if gs == [] then None
    else if MetricFailure(cols, gs[0].1, Metrics).Some? then MetricFailure(cols, gs[0].1, Metrics)
    else FirstFailure(cols, gs[1..])
  }

  /** The weighted averages of one group (lines 68-71). */
  function GroupSummary(c: string, g: seq<Row>): (r: SummaryRow)
    requires WeightTotal(Column(g, WeightColumn)) != 0.0
    ensures r.category == c
    ensures r.rate * WeightTotal(Column(g, WeightColumn)) == WeightedTotal(Column(g, RateColumn), Column(g, WeightColumn))
    ensures r.purchaseRate * WeightTotal(Column(g, WeightColumn))
            == WeightedTotal(Column(g, PurchaseRateColumn), Column(g, WeightColumn))
    ensures r.indicativeRate * WeightTotal(Column(g, WeightColumn))
            == WeightedTotal(Column(g, IndicativeRateColumn), Column(g, WeightColumn))
    ensures r.durationYears * TradingDaysPerYear * WeightTotal(Column(g, WeightColumn))
            == WeightedTotal(Column(g, DurationColumn), Column(g, WeightColumn))
  {
    var ws := Column(g, WeightColumn);
    SummaryRow(c,
      WeightedMean(Column(g, RateColumn), ws),
      WeightedMean(Column(g, PurchaseRateColumn), ws),
      WeightedMean(Column(g, IndicativeRateColumn), ws),
      WeightedMean(Column(g, DurationColumn), ws) / TradingDaysPerYear)
  }

  /** The pivot rows, group by group; a zero weight sum, where pandas would
      give NaN, stops with `ZeroWeightSum`. */
  function SummaryRows(gs: seq<(string, seq<Row>)>): (r: Result<seq<SummaryRow>, Failure>)
    ensures r.Ok? <==> forall n :: 0 <= n < |gs| ==> WeightTotal(Column(gs[n].1, WeightColumn)) != 0.0
    ensures r.Err? ==> exists n :: 0 <= n < |gs| && r.error == ZeroWeightSum(gs[n].0)
    ensures r.Ok? ==> |r.value| == |gs| && forall n :: 0 <= n < |gs| ==> r.value[n].category == gs[n].0
    ensures r.Ok? ==> forall n :: 0 <= n < |gs| ==> r.value[n] == GroupSummary(gs[n].0, gs[n].1)
  {
    if gs == [] then Ok([])
    else
      var g := gs[0].1;
      if WeightTotal(Column(g, WeightColumn)) == 0.0 then Err(ZeroWeightSum(gs[0].0))
      else
        match SummaryRows(gs[1..])
        case Err(e) => Err(e)
        case Ok(rest) => Ok([GroupSummary(gs[0].0, g)] + rest)
  }

  /** A category pandas can average: its metric columns present and free of
      text, and its weights not summing to zero. */
  predicate Averageable(t: Table, c: string)
    requires t.Valid()
  {
    var g := GroupRows(t.rows, c);
    assert Keyed(t.rows, t.columns);
    MetricFailure(t.columns, g, Metrics).None? && WeightTotal(Column(g, WeightColumn)) != 0.0
  }

  /** The exceptions the pivot can raise. */
  predicate PivotFailure(f: Failure)
  {
    f == MissingColumn(CategoryColumn)
    || (f.MissingColumn? && f.name in Metrics)
    || (f.NotNumeric? && f.column in Metrics)
    || f == MissingColumn(WeightColumn) || f == NotNumeric(WeightColumn)
    || (f.ZeroWeightSum? && f.category in Categories)
  }

  /** `criar_pivot_table` (lines 62-75) over the weighted frame. */
  function Summarize(t: Table): (r: Result<seq<SummaryRow>, Failure>)
    requires t.Valid()
    ensures CategoryColumn !in t.columns ==> r == Err(MissingColumn(CategoryColumn))
    ensures r.Err? ==> PivotFailure(r.error)
  {
    if CategoryColumn !in t.columns then Err(MissingColumn(CategoryColumn))
    else
      var gs := GroupsFrom(Categories, t.rows);
      assert Keyed(t.rows, t.columns);
      match FirstFailure(t.columns, gs)
      case Some(e) => Err(e)
      case None => SummaryRows(gs)
  }

  /** Line 68: with the metrics present but no weight column, the first group
      reaches `grupo[peso_col]` and raises `KeyError`. */
  lemma SummarizeNoWeightColumn(t: Table, c: string)
    requires t.Valid() && CategoryColumn in t.columns && WeightColumn !in t.columns
    requires forall m :: m in Metrics ==> m in t.columns
    requires c in Categories && GroupRows(t.rows, c) != []
    ensures Summarize(t) == Err(MissingColumn(WeightColumn))
  {
    var gs := GroupsFrom(Categories, t.rows);
    assert (c, GroupRows(t.rows, c)) in gs;
    assert Keyed(t.rows, t.columns);
    assert Metrics[0] in t.columns;
    assert MetricFailure(t.columns, gs[0].1, Metrics) == Some(MissingColumn(WeightColumn));
  }

  /** The pivot succeeds exactly when the category column is there and every
      listed category that occurs can be averaged. */
  lemma SummarizeSucceeds(t: Table)
    requires t.Valid()
    ensures Summarize(t).Ok? <==> (CategoryColumn in t.columns
                                    && forall c :: c in Categories && GroupRows(t.rows, c) != [] ==> Averageable(t, c))
  {
    SummarizeOkIff(t);
    GroupsAverageableIff(t);
  }

  /** Every group of the list can be averaged. */
  predicate GroupsAverageable(cols: seq<string>, gs: seq<(string, seq<Row>)>)
    requires forall n :: 0 <= n < |gs| ==> Keyed(gs[n].1, cols)
  {
    forall n :: 0 <= n < |gs| ==>
      MetricFailure(cols, gs[n].1, Metrics).None? && WeightTotal(Column(gs[n].1, WeightColumn)) != 0.0
  }

  lemma SummarizeOkIff(t: Table)
    requires t.Valid()
    ensures Keyed(t.rows, t.columns)
    ensures Summarize(t).Ok? <==> CategoryColumn in t.columns && GroupsAverageable(t.columns, GroupsFrom(Categories, t.rows))
  {
    assert Keyed(t.rows, t.columns);
  }

  lemma GroupsAverageableIff(t: Table)
    requires t.Valid()
    ensures Keyed(t.rows, t.columns)
    ensures GroupsAverageable(t.columns, GroupsFrom(Categories, t.rows))
            <==> forall c :: c in Categories && GroupRows(t.rows, c) != [] ==> Averageable(t, c)
  {
    assert Keyed(t.rows, t.columns);
    if GroupsAverageable(t.columns, GroupsFrom(Categories, t.rows)) {
      EveryCategoryAverageable(t);
    }
    if forall c :: c in Categories && GroupRows(t.rows, c) != [] ==> Averageable(t, c) {
      EveryGroupAverageable(t);
    }
  }

  lemma EveryCategoryAverageable(t: Table)
    requires t.Valid() && Keyed(t.rows, t.columns)
    requires GroupsAverageable(t.columns, GroupsFrom(Categories, t.rows))
    ensures forall c :: c in Categories && GroupRows(t.rows, c) != [] ==> Averageable(t, c)
  {
    var gs := GroupsFrom(Categories, t.rows);
    forall c | c in Categories && GroupRows(t.rows, c) != []
      ensures Averageable(t, c)
    {
      var n :| 0 <= n < |gs| && gs[n] == (c, GroupRows(t.rows, c));
    }
  }

  lemma EveryGroupAverageable(t: Table)
    requires t.Valid() && Keyed(t.rows, t.columns)
    requires forall c :: c in Categories && GroupRows(t.rows, c) != [] ==> Averageable(t, c)
    ensures GroupsAverageable(t.columns, GroupsFrom(Categories, t.rows))
  {
    var gs := GroupsFrom(Categories, t.rows);
    forall n | 0 <= n < |gs|
      ensures MetricFailure(t.columns, gs[n].1, Metrics).None? && WeightTotal(Column(gs[n].1, WeightColumn)) != 0.0
    {
      assert Averageable(t, gs[n].0);
    }
  }

  /** A successful pivot is the group summaries of the listed categories. */
  lemma SummarizeGroups(t: Table, out: seq<SummaryRow>)
    requires t.Valid() && Summarize(t) == Ok(out)
    ensures SummaryRows(GroupsFrom(Categories, t.rows)) == Ok(out)
    ensures |out| == |GroupsFrom(Categories, t.rows)|
    ensures forall n :: 0 <= n < |out| ==> out[n].category == GroupsFrom(Categories, t.rows)[n].0
  {
    assert Keyed(t.rows, t.columns);
  }

  /** A successful pivot has one row per listed category that occurs: every
      row is of a listed category that occurs... */
  lemma SummarizeCategoriesListed(t: Table, out: seq<SummaryRow>)
    requires t.Valid() && Summarize(t) == Ok(out)
    ensures forall n :: 0 <= n < |out| ==> out[n].category in Categories && GroupRows(t.rows, out[n].category) != []
  {
    var gs := GroupsFrom(Categories, t.rows);
    SummarizeGroups(t, out);
    assert forall n :: 0 <= n < |out| ==> out[n].category == gs[n].0;
  }

  /** ...and every listed category that occurs has a row... */
  lemma SummarizeCategoriesPresent(t: Table, out: seq<SummaryRow>)
    requires t.Valid() && Summarize(t) == Ok(out)
    ensures forall c :: c in Categories && GroupRows(t.rows, c) != [] ==> exists n :: 0 <= n < |out| && out[n].category == c
  {
    var gs := GroupsFrom(Categories, t.rows);
    SummarizeGroups(t, out);
    forall c | c in Categories && GroupRows(t.rows, c) != []
      ensures exists n :: 0 <= n < |out| && out[n].category == c
    {
      var n :| 0 <= n < |gs| && gs[n] == (c, GroupRows(t.rows, c));
      assert out[n].category == c;
    }
  }

  /** ...in the sorted order of the category list, each once... */
  lemma SummarizeOrdered(t: Table, out: seq<SummaryRow>)
    requires t.Valid() && Summarize(t) == Ok(out)
    ensures forall n :: 0 <= n < |out| ==> out[n].category in Categories
    ensures forall n, m :: 0 <= n < m < |out| ==> IndexIn(Categories, out[n].category) < IndexIn(Categories, out[m].category)
  {
    var gs := GroupsFrom(Categories, t.rows);
    SummarizeGroups(t, out);
    CategoriesDistinct();
    GroupsFromOrdered(Categories, t.rows);
    assert forall n :: 0 <= n < |out| ==> out[n].category == gs[n].0;
  }

  /** ...and each row holds the weighted means of its category's rows. */
  lemma SummarizeAverages(t: Table, out: seq<SummaryRow>)
    requires t.Valid() && Summarize(t) == Ok(out)
    ensures forall n :: 0 <= n < |out| ==>
              var g := GroupRows(t.rows, out[n].category);
              WeightTotal(Column(g, WeightColumn)) != 0.0 && out[n] == GroupSummary(out[n].category, g)
  {
    var gs := GroupsFrom(Categories, t.rows);
    SummarizeGroups(t, out);
    assert forall n :: 0 <= n < |out| ==> out[n].category == gs[n].0 && gs[n].1 == GroupRows(t.rows, gs[n].0);
  }

  /** The frame with `x` inserted before position `i`. */
  function Inserted(t: Table, x: Row, i: nat): (u: Table)
    requires t.Valid() && x.Keys == ColumnSet(t.columns) && i <= |t.rows|
    ensures u.Valid() && u.columns == t.columns && |u.rows| == |t.rows| + 1
    ensures u.rows[i] == x && u.rows[..i] == t.rows[..i] && u.rows[i + 1..] == t.rows[i..]
  {
    var rows := t.rows[..i] + [x] + t.rows[i..];
    assert rows[i + 1..] == t.rows[i..];
    assert rows[..i] == t.rows[..i];
    Table(t.columns, rows)
  }

  /** Two frames with the same columns whose rows fall into the same group
      for each listed category give the same pivot. */
  lemma SummarizeSameGroups(t: Table, u: Table)
    requires t.Valid() && u.Valid() && t.columns == u.columns
    requires forall c :: c in Categories ==> GroupRows(t.rows, c) == GroupRows(u.rows, c)
    ensures Summarize(t) == Summarize(u)
  {
    GroupsFromSameGroups(Categories, t.rows, u.rows);
    assert Keyed(t.rows, t.columns);
    assert Keyed(u.rows, u.columns);
  }

  /** A row not of category `c` inserted anywhere leaves the group of `c` as it was. */
  lemma {:induction false} GroupRowsInsertOther(rows: seq<Row>, u: seq<Row>, x: Row, i: nat, c: string)
    requires i <= |rows| && |u| == |rows| + 1 && !InCategory(x, c)
    requires u[i] == x && u[..i] == rows[..i] && u[i + 1..] == rows[i..]
    ensures GroupRows(u, c) == GroupRows(rows, c)
  {
    if i == 0 {
      assert u[1..] == rows;
    } else {
      assert u[0] == u[..i][0] == rows[0];
      assert u[1..][..i - 1] == u[1..i] == rows[1..i] == rows[1..][..i - 1];
      assert u[1..][i - 1 + 1..] == u[i + 1..];
      assert rows[1..][i - 1..] == rows[i..];
      GroupRowsInsertOther(rows[1..], u[1..], x, i - 1, c);
    }
  }

  /** `isin` at line 63: a row outside the three listed categories, wherever
      it is inserted, changes nothing in the pivot. */
  lemma SummarizeIgnoresOtherCategories(t: Table, x: Row, i: nat)
    requires t.Valid() && x.Keys == ColumnSet(t.columns) && i <= |t.rows|
    requires forall c :: c in Categories ==> !InCategory(x, c)
    ensures Summarize(Inserted(t, x, i)) == Summarize(t)
  {
    var u := Inserted(t, x, i);
    forall c | c in Categories
      ensures GroupRows(u.rows, c) == GroupRows(t.rows, c)
    {
      GroupRowsInsertOther(t.rows, u.rows, x, i, c);
    }
    SummarizeSameGroups(u, t);
  }
}

=== FILE: frames.dfy ===
/** The table shape shared by every stage: a DataFrame is an ordered list of
    distinct column names and a sequence of rows, each row a map from every
    column name to its cell. */
module Frames {

  /** A cell: NaN/None, a number, or text. */
  datatype Cell = Missing | Num(x: real) | Str(s: string)

  type Row = map<string, Cell>

  /** Why a stage stops: the pandas exception it raises, or (for the two
      zero sums) the NaN/inf result it would produce. */
  datatype Failure =
    | MissingColumn(name: string)
    | DuplicateColumns(names: seq<string>)
    | NotText(column: string)
    | NotNumeric(column: string)
    | ZeroMarketValue
    | ZeroWeightSum(category: string)

  predicate Distinct(cs: seq<string>)
  {
    forall i, j :: 0 <= i < j < |cs| ==> cs[i] != cs[j]
  }

  function ColumnSet(cs: seq<string>): set<string>
  {
    set c | c in cs
  }

  /** Every row carries column `c`. */
  predicate HasColumn(rows: seq<Row>, c: string)
  {
    forall i :: 0 <= i < |rows| ==> c in rows[i]
  }

  datatype Table = Table(columns: seq<string>, rows: seq<Row>) {
    /** A rectangular frame: distinct labels, every row keyed by exactly them. */
    predicate Valid()
    {
      Distinct(columns) && forall i :: 0 <= i < |rows| ==> rows[i].Keys == ColumnSet(columns)
    }
  }

  /** The row built from column names and cells given in the same order. */
  function ZipMap(names: seq<string>, cells: seq<Cell>): (m: Row)
    requires |names| == |cells|
    ensures m.Keys == ColumnSet(names)
    ensures Distinct(names) ==> forall i :: 0 <= i < |names| ==> m[names[i]] == cells[i]
  {
    if names == [] then map[]
    else
      var rest := ZipMap(names[1..], cells[1..]);
      assert ColumnSet(names) == ColumnSet(names[1..]) + {names[0]};
      assert forall i :: 1 <= i < |names| ==> names[i] == names[1..][i - 1];
      rest[names[0] := cells[0]]
  }

  /** The numeric value pandas' `sum` adds for a cell; NaN is skipped. */
  function NumOrZero(c: Cell): real
  {
    if c.Num? then c.x else 0.0
  }

  /** `rows[col].sum()` over a column holding only numbers and NaN. */
  function ColumnSum(rows: seq<Row>, col: string): real
    requires HasColumn(rows, col)
  {
    if rows == [] then 0.0 else NumOrZero(rows[0][col]) + ColumnSum(rows[1..], col)
  }

  /** pandas skips NaN, so a column with no number in it sums to 0. */
  lemma {:induction false} ColumnSumNoNumbers(rows: seq<Row>, col: string)
    requires HasColumn(rows, col) && forall i :: 0 <= i < |rows| ==> !rows[i][col].Num?
    ensures ColumnSum(rows, col) == 0.0
  {
    if rows != [] {
      assert forall i :: 0 <= i < |rows[1..]| ==> rows[1..][i] == rows[i + 1];
      ColumnSumNoNumbers(rows[1..], col);
    }
  }

  lemma {:induction false} ColumnSumAppend(a: seq<Row>, b: seq<Row>, col: string)
    requires HasColumn(a, col) && HasColumn(b, col)
    ensures HasColumn(a + b, col)
    ensures ColumnSum(a + b, col) == ColumnSum(a, col) + ColumnSum(b, col)
  {
    if a == [] {
      assert a + b == b;
    } else {
      assert (a + b)[1..] == a[1..] + b;
      ColumnSumAppend(a[1..], b, col);
    }
  }

  lemma MultisetRemoveAt<T>(b: seq<T>, i: nat)
    requires i < |b|
    ensures multiset(b[..i] + b[i + 1..]) == multiset(b) - multiset{b[i]}
  {
    assert b == b[..i] + [b[i]] + b[i + 1..];
  }

  /** The first element of `a` sits at some index `i` of its permutation `b`,
      and the rest of `a` is a permutation of `b` without it. */
  lemma RemoveMatching<T>(a: seq<T>, b: seq<T>) returns (i: nat)
    requires a != [] && multiset(a) == multiset(b)
    ensures i < |b| && b[i] == a[0]
    ensures multiset(a[1..]) == multiset(b[..i] + b[i + 1..])
  {
    assert a[0] in multiset(b);
    i :| 0 <= i < |b| && b[i] == a[0];
    MultisetTail(a);
    MultisetRemoveAt(b, i);
  }

  lemma MultisetTail<T>(a: seq<T>)
    requires a != []
    ensures multiset(a[1..]) == multiset(a) - multiset{a[0]}
  {
    assert a == [a[0]] + a[1..];
  }

  lemma ColumnSumRemoveAt(b: seq<Row>, i: nat, col: string)
    requires i < |b| && HasColumn(b, col)
    ensures HasColumn(b[..i] + b[i + 1..], col)
    ensures ColumnSum(b, col) == NumOrZero(b[i][col]) + ColumnSum(b[..i] + b[i + 1..], col)
  {
    assert b == b[..i] + ([b[i]] + b[i + 1..]);
    ColumnSumAppend(b[..i], [b[i]] + b[i + 1..], col);
    assert ([b[i]] + b[i + 1..])[1..] == b[i + 1..];
    ColumnSumAppend(b[..i], b[i + 1..], col);
  }

  /** A column total does not depend on the order of the rows. */
  lemma {:induction false} ColumnSumPermutation(a: seq<Row>, b: seq<Row>, col: string)
    requires HasColumn(a, col) && HasColumn(b, col)
    requires multiset(a) == multiset(b)
    ensures ColumnSum(a, col) == ColumnSum(b, col)
    decreases |a|
  {
    if a == [] {
      assert |b| == |multiset(b)| == 0;
    } else {
      var i := RemoveMatching(a, b);
      ColumnSumRemoveAt(b, i, col);
      ColumnSumPermutation(a[1..], b[..i] + b[i + 1..], col);
    }
  }
}

=== FILE: pipeline.dfy ===
/** The script body of `streamlit_app.py` once a workbook is loaded: the
    holdings frame goes through each stage in turn, the frame variable being
    rebound (or changed in place) at every step, and the pivot is built from
    the final frame. */
module Pipeline {
  import opened Wrappers
  import opened Frames
  import RateText
  import opened Reconcile
  import opened Prune
  import opened Weighting
  import opened Aggregate

  /** What `extrair_numeros` puts in a text cell: the number read, or NaN. */
  function RateCell(text: string): (c: Cell)
    ensures c.Missing? <==> forall i :: 0 <= i < |text| ==> !RateText.IsDigit(text[i])
    ensures c.Num? ==> RateText.ExtractRate(text) == Some(c.x)
    ensures !c.Str?
  {
    RateText.ExtractRateNoneIff(text);
    match RateText.ExtractRate(text)
    case Some(v) => Num(v)
    case None => Missing
  }

  predicate TextColumn(rows: seq<Row>, col: string)
    requires HasColumn(rows, col)
  {
    forall i :: 0 <= i < |rows| ==> rows[i][col].Str?
  }

  /** Line 43: `apply(extrair_numeros)` over the rate column. The column must
      exist (`KeyError`) and hold text only: `.replace` on a number or NaN
      raises `AttributeError`. */
  function NormaliseRates(t: Table): (r: Result<Table, Failure>)
    requires t.Valid()
    ensures r.Ok? <==> RateColumn in t.columns && TextColumn(t.rows, RateColumn)
    ensures r.Err? ==> r.error == (if RateColumn in t.columns then NotText(RateColumn) else MissingColumn(RateColumn))
    ensures r.Ok? ==> r.value.Valid() && r.value.columns == t.columns && |r.value.rows| == |t.rows|
    ensures r.Ok? ==> forall i, c :: 0 <= i < |t.rows| && c in t.columns && c != RateColumn ==>
      r.value.rows[i][c] == t.rows[i][c]
    ensures r.Ok? ==> forall i :: 0 <= i < |t.rows| ==> r.value.rows[i][RateColumn] == RateCell(t.rows[i][RateColumn].s)
    ensures r.Ok? ==> forall i :: 0 <= i < |t.rows| ==> !r.value.rows[i][RateColumn].Str?
  {
    if RateColumn !in t.columns then Err(MissingColumn(RateColumn))
    else
      assert RateColumn in ColumnSet(t.columns);
      if !TextColumn(t.rows, RateColumn) then Err(NotText(RateColumn))
      else
        var rows := seq(|t.rows|, i requires 0 <= i < |t.rows| =>
          t.rows[i][RateColumn := RateCell(t.rows[i][RateColumn].s)]);
        Ok(Table(t.columns, rows))
  }

  /** The frame after line 59 and the pivot of lines 62-75. */
  type Report = (Table, seq<SummaryRow>)

  /** Lines 43-52 as one function: the rate rewrite, then the pruning. */
  function CleanStages(joined: Table): Result<Table, Failure>
    requires joined.Valid()
  {
    match NormaliseRates(joined)
    case Err(e) => Err(e)
    case Ok(normalised) => PruneColumns(normalised)
  }

  /** Lines 43-52 on the merged frame: rates rewritten, columns pruned. */
  method CleanFrame(joined: Table) returns (r: Result<Table, Failure>)
    requires joined.Valid()
    ensures r == CleanStages(joined)
    ensures r.Ok? ==> r.value.Valid() && |r.value.rows| == |joined.rows|
    ensures r.Ok? && joined.rows == [] ==> MarketValueColumn !in r.value.columns
    ensures r.Ok? ==> RateColumn in joined.columns && forall c :: c in r.value.columns ==> c in joined.columns
    ensures r.Ok? ==> forall i :: 0 <= i < |joined.rows| && RateColumn in r.value.columns ==>
      r.value.rows[i][RateColumn] == RateCell(joined.rows[i][RateColumn].s)
    ensures r.Ok? ==> forall i, c :: 0 <= i < |joined.rows| && c in r.value.columns && c != RateColumn ==>
      r.value.rows[i][c] == joined.rows[i][c]
    ensures r.Err? ==> r.error.MissingColumn? || r.error == NotText(RateColumn)
  {
    var df := joined;
    var step := NormaliseRates(df);
    if step.Err? {
      return Err(step.error);
    }
    df := step.value;
    step := PruneColumns(df);
    if step.Err? {
      return Err(step.error);
    }
    EmptyFramePrunesAll(df, step.value);
    r := step;
  }

  /** Line 59: `sort_values(..., ascending=False)` on the market value. */
  function SortFrame(t: Table): (u: Table)
    requires t.Valid() && MarketValueColumn in t.columns
    ensures u.Valid() && u.columns == t.columns && multiset(u.rows) == multiset(t.rows)
    ensures HasColumn(u.rows, MarketValueColumn) && SortedByMarketValue(u.rows)
  {
    assert MarketValueColumn in ColumnSet(t.columns);
    var sorted := SortByMarketValue(t.rows);
    SortKeepsFrame(t, sorted);
    Table(t.columns, sorted)
  }

  /** Lines 55-59 as one function: the weights, then the sort. */
  function WeighStages(cleaned: Table): Result<Table, Failure>
    requires cleaned.Valid()
  {
    match AddWeights(cleaned)
    case Err(e) => Err(e)
    case Ok(weighted) => Ok(SortFrame(weighted))
  }

  /** Lines 55-59: weights added, rows sorted by market value, largest first. */
  method WeighFrame(cleaned: Table) returns (r: Result<Table, Failure>)
    requires cleaned.Valid()
    ensures r == WeighStages(cleaned)
    ensures r.Ok? <==> AddWeights(cleaned).Ok?
    ensures r.Ok? ==> r.value.columns == AddWeights(cleaned).value.columns
                      && multiset(r.value.rows) == multiset(AddWeights(cleaned).value.rows)
    ensures MarketValueColumn !in cleaned.columns ==> r.Err?
    ensures r.Ok? ==> |r.value.rows| == |cleaned.rows|
    ensures r.Ok? ==> r.value.Valid() && MarketValueColumn in r.value.columns && WeightColumn in r.value.columns
    ensures r.Ok? ==> HasColumn(r.value.rows, MarketValueColumn) && SortedByMarketValue(r.value.rows)
    ensures r.Ok? ==> HasColumn(r.value.rows, WeightColumn) && ColumnSum(r.value.rows, WeightColumn) == 1.0
    ensures r.Err? ==> r.error in {MissingColumn(MarketValueColumn), NotNumeric(MarketValueColumn), ZeroMarketValue}
  {
    var step := AddWeights(cleaned);
    if step.Err? {
      return Err(step.error);
    }
    WeightsSumToOne(cleaned);
    var df := step.value;
    var sorted := SortFrame(df);
    assert |sorted.rows| == |multiset(sorted.rows)| == |multiset(df.rows)| == |df.rows|;
    assert WeightColumn in ColumnSet(sorted.columns);
    ColumnSumPermutation(df.rows, sorted.rows, WeightColumn);
    r := Ok(sorted);
  }

  /** The script from line 33 to line 78 as one function of its inputs. */
  function Script(reference: Table, holdings: Table, date: string): Result<Report, Failure>
    requires reference.Valid() && holdings.Valid()
  {
    match JoinOnDate(reference, holdings, date)
    case Err(e) => Err(e)
    case Ok(joined) =>
      match CleanStages(joined)
      case Err(e) => Err(e)
      case Ok(cleaned) =>
        match WeighStages(cleaned)
        case Err(e) => Err(e)
        case Ok(df) =>
          match Summarize(df)
          case Err(e) => Err(e)
          case Ok(pivot) => Ok((df, pivot))
  }

  /** The script from line 33 to line 78, for the reference frame that the
      merge of line 40 names and the reference date of line 33. */
  method RunPipeline(reference: Table, holdings: Table, date: string) returns (r: Result<Report, Failure>)
    requires reference.Valid() && holdings.Valid()
    ensures r == Script(reference, holdings, date)
    ensures JoinOnDate(reference, holdings, date).Err? ==> r == Err(JoinOnDate(reference, holdings, date).error)
    ensures r.Ok? ==> (JoinOnDate(reference, holdings, date).Ok?
                       && |r.value.0.rows| == |JoinOnDate(reference, holdings, date).value.rows|)
    ensures JoinOnDate(reference, holdings, date).Ok? && JoinOnDate(reference, holdings, date).value.rows == [] ==> r.Err?
    ensures r.Ok? ==> r.value.0.Valid() && MarketValueColumn in r.value.0.columns && WeightColumn in r.value.0.columns
    ensures r.Ok? ==> HasColumn(r.value.0.rows, MarketValueColumn) && SortedByMarketValue(r.value.0.rows)
    ensures r.Ok? ==> HasColumn(r.value.0.rows, WeightColumn) && ColumnSum(r.value.0.rows, WeightColumn) == 1.0
    ensures r.Ok? ==> Summarize(r.value.0) == Ok(r.value.1)
    ensures r.Err? ==> (r.error.MissingColumn? || r.error.DuplicateColumns? || r.error == NotText(RateColumn)
                        || r.error == NotNumeric(MarketValueColumn) || r.error == ZeroMarketValue
                        || PivotFailure(r.error))
  {
    var joined := JoinOnDate(reference, holdings, date);
    if joined.Err? {
      return Err(joined.error);
    }
    var cleaned := CleanFrame(joined.value);
    if cleaned.Err? {
      return Err(cleaned.error);
    }
    var df := WeighFrame(cleaned.value);
    if df.Err? {
      return Err(df.error);
    }
    var pivot := Summarize(df.value);
    if pivot.Err? {
      return Err(pivot.error);
    }
    r := Ok((df.value, pivot.value));
  }

  /** Pruning an empty frame drops every column: `dropna(how='all')` finds no
      value in any of them. */
  lemma EmptyFramePrunesAll(t: Table, u: Table)
    requires t.Valid() && PruneColumns(t) == Ok(u)
    ensures t.rows == [] ==> forall c :: c !in u.columns
  {
  }

  /** Reordering the rows keeps the frame rectangular. */
  lemma SortKeepsFrame(t: Table, rows: seq<Row>)
    requires t.Valid() && multiset(rows) == multiset(t.rows)
    ensures Table(t.columns, rows).Valid()
  {
    forall i | 0 <= i < |rows|
      ensures rows[i].Keys == ColumnSet(t.columns)
    {
      assert rows[i] in multiset(t.rows);
    }
  }
}

=== FILE: prune.dfy ===
/** Lines 46-52: drop a fixed list of columns, then every column that is all
    NaN, then every column with no cell different from 0. */
module Prune {
  import opened Wrappers
  import opened Frames

  const DropList: seq<string> := [
    "Tipo Fundo", "Percentual Aplicação", "Tipo Aplicação", "% REUNE", "Referência NTN-B",
    "Intervalo indicativo mínimo", "Intervalo indicativo máximo", "Descrição Ativo", "% VNE"
  ]

  /** Some cell of column `c` is not NaN: `dropna(axis=1, how='all')` keeps it. */
  predicate AnyPresent(rows: seq<Row>, c: string)
  {
    exists i :: 0 <= i < |rows| && c in rows[i] && rows[i][c] != Missing
  }

  /** Some cell of column `c` is `!= 0`; NaN and text compare unequal to 0. */
  predicate AnyNonZero(rows: seq<Row>, c: string)
  {
    exists i :: 0 <= i < |rows| && c in rows[i] && rows[i][c] != Num(0.0)
  }

  /** The labels of `cols` that `keep` accepts, in their order. */
  function FilterColumns(cols: seq<string>, keep: string -> bool): (r: seq<string>)
    ensures forall c :: c in r <==> c in cols && keep(c)
    ensures Distinct(cols) ==> Distinct(r)
  {
    if cols == [] then []
    else
      var rest := FilterColumns(cols[1..], keep);
      assert Distinct(cols) ==> cols[0] !in cols[1..];
      (if keep(cols[0]) then [cols[0]] else []) + rest
  }

  /** Every row cut down to the labels in `keep`; the cells are untouched. */
  function RestrictRows(rows: seq<Row>, keep: set<string>): (r: seq<Row>)
    ensures |r| == |rows|
    ensures forall i :: 0 <= i < |r| ==> r[i].Keys == rows[i].Keys * keep
    ensures forall i, c :: 0 <= i < |r| && c in r[i] ==> r[i][c] == rows[i][c]
  {
    seq(|rows|, i requires 0 <= i < |rows| => map c | c in rows[i] && c in keep :: rows[i][c])
  }

  /** The frame restricted to the labels `keep` accepts. */
  function SelectColumns(t: Table, keep: string -> bool): (r: Table)
    requires t.Valid()
    ensures r.Valid() && |r.rows| == |t.rows|
    ensures forall c :: c in r.columns <==> c in t.columns && keep(c)
    ensures forall i, c :: 0 <= i < |r.rows| && c in r.columns ==> r.rows[i][c] == t.rows[i][c]
  {
    var cols := FilterColumns(t.columns, keep);
    assert ColumnSet(cols) == ColumnSet(t.columns) * ColumnSet(cols);
    Table(cols, RestrictRows(t.rows, ColumnSet(cols)))
  }

  /** The first label of `names` that the frame lacks. */
  function FirstAbsent(cols: seq<string>, names: seq<string>): (r: Option<string>)
    ensures r.None? <==> forall c :: c in names ==> c in cols
    ensures r.Some? ==> r.value in names && r.value !in cols
  {
    if names == [] then None
    else if names[0] !in cols then Some(names[0])
    else FirstAbsent(cols, names[1..])
  }

  /** Line 48: `drop(columns=...)` raises `KeyError` when a label is absent. */
  function DropColumns(t: Table, names: seq<string>): (r: Result<Table, Failure>)
    requires t.Valid()
    ensures r.Ok? <==> forall c :: c in names ==> c in t.columns
    ensures r.Err? ==> r.error.MissingColumn? && r.error.name in names && r.error.name !in t.columns
    ensures r.Ok? ==> r.value.Valid() && |r.value.rows| == |t.rows|
    ensures r.Ok? ==> forall c :: c in r.value.columns <==> c in t.columns && c !in names
    ensures r.Ok? ==> forall i, c :: 0 <= i < |t.rows| && c in r.value.columns ==> r.value.rows[i][c] == t.rows[i][c]
  {
    match FirstAbsent(t.columns, names)
    case Some(c) => Err(MissingColumn(c))
    case None => Ok(SelectColumns(t, c => c !in names))
  }

  /** Lines 46-52 in order. A column survives exactly when it is not in the
      drop list, holds some non-NaN cell and holds some cell other than 0;
      the rows and every surviving cell are unchanged. */
  function PruneColumns(t: Table): (r: Result<Table, Failure>)
    requires t.Valid()
    ensures r.Ok? <==> forall c :: c in DropList ==> c in t.columns
    ensures r.Err? ==> r.error.MissingColumn? && r.error.name in DropList
    ensures r.Ok? ==> r.value.Valid() && |r.value.rows| == |t.rows|
    ensures r.Ok? ==> forall c :: c in r.value.columns <==>
      c in t.columns && c !in DropList && AnyPresent(t.rows, c) && AnyNonZero(t.rows, c)
    ensures r.Ok? ==> forall i, c :: 0 <= i < |t.rows| && c in r.value.columns ==> r.value.rows[i][c] == t.rows[i][c]
  {
    match DropColumns(t, DropList)
    case Err(e) => Err(e)
    case Ok(listed) =>
      var present := SelectColumns(listed, c => AnyPresent(listed.rows, c));
      var informative := SelectColumns(present, c => AnyNonZero(present.rows, c));
      SameColumnSameTests(listed, t);
      SameColumnSameTests(present, t);
      Ok(informative)
  }

  /** Tests on a column read only that column's cells. */
  lemma SameColumnSameTests(a: Table, b: Table)
    requires a.Valid() && b.Valid() && |a.rows| == |b.rows|
    requires forall c :: c in a.columns ==> c in b.columns
    requires forall i, c :: 0 <= i < |a.rows| && c in a.columns ==> a.rows[i][c] == b.rows[i][c]
    ensures forall c :: c in a.columns ==>
      (AnyPresent(a.rows, c) <==> AnyPresent(b.rows, c)) && (AnyNonZero(a.rows, c) <==> AnyNonZero(b.rows, c))
  {
    forall c | c in a.columns
      ensures (AnyPresent(a.rows, c) <==> AnyPresent(b.rows, c)) && (AnyNonZero(a.rows, c) <==> AnyNonZero(b.rows, c))
    {
      assert forall i :: 0 <= i < |a.rows| ==> c in a.rows[i] && c in b.rows[i];
    }
  }
}

=== FILE: rate.dfy ===
/** The rate scanner of `extrair_numeros`: every comma becomes a period, then
    the leftmost match of the pattern `[-+]?\d*\.\d+|\d+` (first alternative
    tried first at each position, quantifiers greedy) is read as a number. */
module RateText {
  import opened Wrappers

  predicate IsDigit(c: char) { '0' <= c <= '9' }

  predicate IsSign(c: char) { c == '-' || c == '+' }

  predicate AllDigits(s: seq<char>) { forall i :: 0 <= i < |s| ==> IsDigit(s[i]) }

  /** Strings of the form `\d*\.\d+`. */
  predicate IsPointNumeral(u: seq<char>)
  {
    exists k :: 0 <= k < |u| - 1 && u[k] == '.' && AllDigits(u[..k]) && AllDigits(u[k + 1..])
  }

  /** Strings of the form `[-+]?\d*\.\d+`, the first alternative. */
  predicate IsDecimalToken(t: seq<char>)
  {
    IsPointNumeral(t) || (|t| > 0 && IsSign(t[0]) && IsPointNumeral(t[1..]))
  }

  /** Strings of the form `\d+`, the second alternative. */
  predicate IsIntegerToken(t: seq<char>) { |t| > 0 && AllDigits(t) }

  /** The language of the whole pattern. */
  predicate IsToken(t: seq<char>) { IsDecimalToken(t) || IsIntegerToken(t) }

  /** `remuneracao.replace(',', '.')` */
  function ReplaceCommas(s: string): (r: string)
    ensures |r| == |s|
    ensures forall i :: 0 <= i < |r| ==> r[i] != ','
    ensures forall i :: 0 <= i < |r| ==> (IsDigit(r[i]) <==> IsDigit(s[i]))
    ensures forall i :: 0 <= i < |r| ==> (r[i] == '.' <==> s[i] == ',' || s[i] == '.')
    ensures forall i :: 0 <= i < |r| && s[i] != ',' ==> r[i] == s[i]
  {
    seq(|s|, i requires 0 <= i < |s| => if s[i] == ',' then '.' else s[i])
  }

  /** End of the longest run of digits that starts at `i` (the greedy `\d*`). */
  function DigitRunEnd(s: seq<char>, i: nat): (j: nat)
    requires i <= |s|
    ensures i <= j <= |s|
    ensures forall k :: i <= k < j ==> IsDigit(s[k])
    ensures j == |s| || !IsDigit(s[j])
    decreases |s| - i
  {
    if i < |s| && IsDigit(s[i]) then DigitRunEnd(s, i + 1) else i
  }

  /** Where `\d*\.\d+` tried at `q` ends, if it matches there. */
  function PointNumeralEnd(s: seq<char>, q: nat): (r: Option<nat>)
    requires q <= |s|
    ensures r.Some? ==> q < r.value <= |s| && IsPointNumeral(s[q..r.value])
    ensures r.Some? ==> r.value == |s| || !IsDigit(s[r.value])
  {
    var j := DigitRunEnd(s, q);
    if j + 1 < |s| && s[j] == '.' && IsDigit(s[j + 1]) then
      var e := DigitRunEnd(s, j + 1);
      PointNumeralSpan(s, q, j, e);
      Some(e)
    else
      None
  }

  /** Digits, a point, then at least one digit form a `\d*\.\d+` span. */
  lemma PointNumeralSpan(s: seq<char>, q: nat, j: nat, e: nat)
    requires q <= j && j + 1 < e <= |s| && s[j] == '.'
    requires forall i :: q <= i < j ==> IsDigit(s[i])
    requires forall i :: j + 1 <= i < e ==> IsDigit(s[i])
    ensures IsPointNumeral(s[q..e])
  {
    var u := s[q..e];
    var intPart, fracPart := u[..j - q], u[j - q + 1..];
    assert u[j - q] == '.';
    assert forall i :: 0 <= i < |intPart| ==> intPart[i] == s[q + i];
    assert forall i :: 0 <= i < |fracPart| ==> fracPart[i] == s[j + 1 + i];
  }

  /** `\d*\.\d+` matches at `q` exactly when some prefix of `s[q..]` has that form. */
  lemma {:induction false} PointNumeralEndComplete(s: seq<char>, q: nat, e: nat)
    requires q <= e <= |s|
    requires IsPointNumeral(s[q..e])
    ensures PointNumeralEnd(s, q).Some?
  {
    var u := s[q..e];
    var k :| 0 <= k < |u| - 1 && u[k] == '.' && AllDigits(u[..k]) && AllDigits(u[k + 1..]);
    PointNumeralParts(s, q, e, k);
    DigitRunEndAt(s, q, q + k);
  }

  /** A point numeral read back in `s`: digits, the point at `q + k`, a digit after it. */
  lemma PointNumeralParts(s: seq<char>, q: nat, e: nat, k: nat)
    requires q <= e <= |s| && k + 1 < e - q && s[q..e][k] == '.'
    requires AllDigits(s[q..e][..k]) && AllDigits(s[q..e][k + 1..])
    ensures q + k + 1 < |s| && s[q + k] == '.' && IsDigit(s[q + k + 1])
    ensures forall i :: q <= i < q + k ==> IsDigit(s[i])
  {
    var u := s[q..e];
    forall i | q <= i < q + k ensures IsDigit(s[i]) {
      assert s[i] == u[..k][i - q];
    }
    assert s[q + k + 1] == u[k + 1..][0];
  }

  /** The digit run from `q` stops at the first non-digit. */
  lemma DigitRunEndAt(s: seq<char>, q: nat, m: nat)
    requires q <= m < |s| && !IsDigit(s[m])
    requires forall i :: q <= i < m ==> IsDigit(s[i])
    ensures DigitRunEnd(s, q) == m
  {
  }

  /** The match of the pattern that starts at `p`, given by where it ends.
      At a sign only the signed first alternative can match; elsewhere the
      first alternative is tried before `\d+`. */
  function MatchAt(s: seq<char>, p: nat): (r: Option<nat>)
    requires p < |s|
    ensures r.Some? ==> p < r.value <= |s| && IsToken(s[p..r.value])
    ensures r.Some? ==> r.value == |s| || !IsDigit(s[r.value])
    ensures r.Some? && IsSign(s[p]) ==> IsDecimalToken(s[p..r.value])
  {
    if IsSign(s[p]) then
      match PointNumeralEnd(s, p + 1)
      case Some(e) =>
        assert s[p..e][1..] == s[p + 1..e];
        Some(e)
      case None => None
    else
      match PointNumeralEnd(s, p)
      case Some(e) => Some(e)
      case None =>
        if IsDigit(s[p]) then
          var e := DigitRunEnd(s, p);
          assert forall i :: 0 <= i < e - p ==> s[p..e][i] == s[p + i];
          Some(e)
        else
          None
  }

  /** A sign or any other non-digit, non-period character cannot start a
      point numeral. */
  lemma PointNumeralStart(u: seq<char>)
    requires IsPointNumeral(u)
    ensures IsDigit(u[0]) || u[0] == '.'
  {
    var k :| 0 <= k < |u| - 1 && u[k] == '.' && AllDigits(u[..k]) && AllDigits(u[k + 1..]);
    if k > 0 {
      assert u[..k][0] == u[0];
    }
  }

  /** Nothing matches at `p` exactly when no prefix of `s[p..]` belongs to the
      pattern's language. */
  lemma {:induction false} MatchAtNoneIff(s: seq<char>, p: nat)
    requires p < |s|
    ensures MatchAt(s, p).None? <==> forall e :: p < e <= |s| ==> !IsToken(s[p..e])
  {
    if MatchAt(s, p).None? {
      forall e | p < e <= |s| ensures !IsToken(s[p..e]) {
        var t := s[p..e];
        assert t[0] == s[p];
        if IsPointNumeral(t) {
          PointNumeralEndComplete(s, p, e);
          PointNumeralStart(t);
          assert false;
        } else if |t| > 0 && IsSign(t[0]) && IsPointNumeral(t[1..]) {
          assert t[1..] == s[p + 1..e];
          PointNumeralEndComplete(s, p + 1, e);
          assert false;
        } else if IsIntegerToken(t) {
          assert false;
        }
      }
    }
  }

  /** The first alternative wins: whenever a prefix of `s[p..]` has the form
      `[-+]?\d*\.\d+`, the match at `p` has that form too. */
  lemma {:induction false} MatchAtPrefersDecimal(s: seq<char>, p: nat, e: nat)
    requires p < e <= |s|
    requires IsDecimalToken(s[p..e])
    ensures MatchAt(s, p).Some? && IsDecimalToken(s[p..MatchAt(s, p).value])
  {
    var t := s[p..e];
    assert t[0] == s[p];
    if IsSign(s[p]) {
      if IsPointNumeral(t) {
        PointNumeralStart(t);
      }
      assert t[1..] == s[p + 1..e];
      PointNumeralEndComplete(s, p + 1, e);
    } else {
      if !IsPointNumeral(t) {
        assert false;
      }
      PointNumeralEndComplete(s, p, e);
    }
  }

  /** A match: the slice `s[start..end]`. */
  datatype Span = Span(start: nat, end: nat)

  /** The first element of `re.findall`: the match at the leftmost position,
      searching from `p` on. */
  function LeftmostMatch(s: seq<char>, p: nat): (r: Option<Span>)
    requires p <= |s|
    ensures r.Some? ==> p <= r.value.start < |s| && MatchAt(s, r.value.start) == Some(r.value.end)
    ensures r.Some? ==> forall q :: p <= q < r.value.start ==> MatchAt(s, q).None?
    ensures r.None? ==> forall q :: p <= q < |s| ==> MatchAt(s, q).None?
    decreases |s| - p
  {
    if p == |s| then None
    else
      match MatchAt(s, p)
      case Some(e) => Some(Span(p, e))
      case None => LeftmostMatch(s, p + 1)
  }

  function DigitOf(c: char): (d: nat)
    ensures d <= 9
  {
    if IsDigit(c) then c as int - '0' as int else 0
  }

  /** The value of a string of decimal digits, most significant first. */
  function DigitsValue(ds: seq<char>): nat
  {
    if ds == [] then 0 else 10 * DigitsValue(ds[..|ds| - 1]) + DigitOf(ds[|ds| - 1])
  }

  function Pow10(n: nat): (r: nat)
    ensures r >= 1
  {
    if n == 0 then 1 else 10 * Pow10(n - 1)
  }

  /** A fraction part with n digits is below 1. */
  lemma {:induction false} DigitsValueBelowPow10(ds: seq<char>)
    ensures DigitsValue(ds) < Pow10(|ds|)
  {
    if ds != [] {
      DigitsValueBelowPow10(ds[..|ds| - 1]);
    }
  }

  lemma FractionBelowOne(a: real, b: real)
    requires 0.0 <= a < b
    ensures 0.0 <= a / b < 1.0
  {
  }

  /** Index of the first period, or the length when there is none. */
  function DotIndex(u: seq<char>): (k: nat)
    ensures k <= |u|
    ensures k < |u| ==> u[k] == '.'
    ensures forall i :: 0 <= i < k ==> u[i] != '.'
  {
    if u == [] then 0 else if u[0] == '.' then 0 else 1 + DotIndex(u[1..])
  }

  /** `float` of an unsigned numeral `\d+` or `\d*\.\d+`: integer part plus
      fraction part over the matching power of ten. */
  function UnsignedValue(u: seq<char>): (v: real)
    ensures v >= 0.0
    ensures v >= DigitsValue(u[..DotIndex(u)]) as real
    ensures DotIndex(u) < |u| ==> v < (DigitsValue(u[..DotIndex(u)]) + 1) as real
  {
    var k := DotIndex(u);
    if k == |u| then
      assert u[..k] == u;
      DigitsValue(u) as real
    else
      var frac, scale := DigitsValue(u[k + 1..]) as real, Pow10(|u| - k - 1) as real;
      DigitsValueBelowPow10(u[k + 1..]);
      FractionBelowOne(frac, scale);
      DigitsValue(u[..k]) as real + frac / scale
  }

  /** `float` of a matched token; a leading `-` negates, a leading `+` is dropped. */
  function TokenValue(t: seq<char>): (v: real)
    ensures v < 0.0 ==> |t| > 0 && t[0] == '-'
    ensures |t| > 0 && t[0] == '-' ==> v <= 0.0
  {
    if |t| > 0 && t[0] == '-' then -UnsignedValue(t[1..])
    else if |t| > 0 && t[0] == '+' then UnsignedValue(t[1..])
    else UnsignedValue(t)
  }

  /** `extrair_numeros`: the number read from the leftmost match, or `None`. */
  function ExtractRate(text: string): (r: Option<real>)
    ensures r.Some? ==> exists i :: 0 <= i < |text| && IsDigit(text[i])
  {
    var s := ReplaceCommas(text);
    match LeftmostMatch(s, 0)
    case None => None
    case Some(m) =>
      MatchedDigit(text, m.start, m.end);
      Some(TokenValue(s[m.start..m.end]))
  }

  /** A token found in the comma-free text shows a digit of the text. */
  lemma MatchedDigit(text: string, p: nat, e: nat)
    requires p < e <= |ReplaceCommas(text)| && IsToken(ReplaceCommas(text)[p..e])
    ensures exists i :: 0 <= i < |text| && IsDigit(text[i])
  {
    var t := ReplaceCommas(text)[p..e];
    TokenHasDigit(t);
    var i :| 0 <= i < |t| && IsDigit(t[i]);
    assert IsDigit(text[p + i]);
  }

  lemma TokenHasDigit(t: seq<char>)
    requires IsToken(t)
    ensures exists i :: 0 <= i < |t| && IsDigit(t[i])
  {
    if IsPointNumeral(t) {
      var k :| 0 <= k < |t| - 1 && t[k] == '.' && AllDigits(t[..k]) && AllDigits(t[k + 1..]);
      assert IsDigit(t[k + 1..][0]);
    } else if |t| > 0 && IsSign(t[0]) && IsPointNumeral(t[1..]) {
      var u := t[1..];
      var k :| 0 <= k < |u| - 1 && u[k] == '.' && AllDigits(u[..k]) && AllDigits(u[k + 1..]);
      assert IsDigit(u[k + 1..][0]);
      assert t[k + 2] == u[k + 1];
    } else {
      assert IsDigit(t[0]);
    }
  }

  /** `extrair_numeros` returns `None` exactly when the text holds no digit. */
  lemma {:induction false} ExtractRateNoneIff(text: string)
    ensures ExtractRate(text).None? <==> forall i :: 0 <= i < |text| ==> !IsDigit(text[i])
  {
    var s := ReplaceCommas(text);
    match LeftmostMatch(s, 0)
    case None =>
      forall i | 0 <= i < |text| ensures !IsDigit(text[i]) {
        assert MatchAt(s, i).None?;
      }
    case Some(m) =>
      MatchedDigit(text, m.start, m.end);
  }

  /** A value read is that of a token of the comma-free text that no earlier
      token precedes, that is not followed by a further digit, and that is a
      decimal token whenever one starts at the same place. */
  lemma ExtractRateLeftmostToken(text: string)
    requires ExtractRate(text).Some?
    ensures var s := ReplaceCommas(text);
      exists p, e :: 0 <= p < e <= |s| && IsToken(s[p..e]) && ExtractRate(text).value == TokenValue(s[p..e])
        && (e == |s| || !IsDigit(s[e]))
        && (forall q, f :: 0 <= q < p && q < f <= |s| ==> !IsToken(s[q..f]))
        && (forall f :: p < f <= |s| && IsDecimalToken(s[p..f]) ==> IsDecimalToken(s[p..e]))
  {
    var s := ReplaceCommas(text);
    var m := LeftmostMatch(s, 0).value;
    forall q, f | 0 <= q < m.start && q < f <= |s|
      ensures !IsToken(s[q..f])
    {
      MatchAtNoneIff(s, q);
    }
    forall f | m.start < f <= |s| && IsDecimalToken(s[m.start..f])
      ensures IsDecimalToken(s[m.start..m.end])
    {
      MatchAtPrefersDecimal(s, m.start, f);
    }
    assert IsToken(s[m.start..m.end]);
  }

  /** The decimal alternative decides the value: `"1.5"` reads as 1.5, not
      as the integer token `"1"` in front of the period. */
  lemma RateExampleDecimalFirst()
    ensures ExtractRate("1.5") == Some(1.5)
  {
    var s := "1.5";
    assert ReplaceCommas(s) == s;
    DecimalFirstMatch();
    assert s[0..3] == s;
    DecimalFirstValue();
  }

  lemma DecimalFirstMatch()
    ensures LeftmostMatch("1.5", 0) == Some(Span(0, 3))
  {
    var s := "1.5";
    assert DigitRunEnd(s, 0) == 1;
    assert DigitRunEnd(s, 2) == 3;
    assert PointNumeralEnd(s, 0) == Some(3);
  }

  lemma DecimalFirstValue()
    ensures TokenValue("1.5") == 1.5
  {
    var u := "1.5";
    assert DotIndex(u) == 1;
    assert u[..1] == "1" && u[2..] == "5";
    assert DigitsValue("1") == 1;
    assert DigitsValue("5") == 5;
    assert Pow10(1) == 10;
  }

  /** Worked cases: commas are decimal points, a sign survives only in front
      of the period form, a trailing period is not consumed. */
  lemma RateExampleComma()
    ensures ExtractRate("1,75% a.a.") == Some(1.75)
  {
    var s := ReplaceCommas("1,75% a.a.");
    assert s == "1.75% a.a.";
    CommaExampleMatch();
    assert s[0..4] == "1.75";
    CommaExampleValue();
  }

  lemma CommaExampleMatch()
    ensures LeftmostMatch("1.75% a.a.", 0) == Some(Span(0, 4))
  {
    var s := "1.75% a.a.";
    assert DigitRunEnd(s, 0) == 1;
    assert DigitRunEnd(s, 2) == 4;
    assert PointNumeralEnd(s, 0) == Some(4);
  }

  lemma CommaExampleValue()
    ensures TokenValue("1.75") == 1.75
  {
    var u := "1.75";
    assert DotIndex(u) == 1;
    assert u[..1] == "1" && u[2..] == "75";
    assert DigitsValue("1") == 1;
    assert DigitsValue("75") == 75;
    assert Pow10(2) == 100;
  }

  lemma RateExampleNegativeFraction()
    ensures ExtractRate("-0,5") == Some(-0.5)
  {
  }

  lemma RateExampleSignedInteger()
    ensures ExtractRate("-5") == Some(5.0)
  {
  }

  lemma RateExampleTrailingPoint()
    ensures ExtractRate("1.") == Some(1.0)
  {
  }

  lemma RateExampleNoDigit()
    ensures ExtractRate("N/D") == None
  {
  }
}

=== FILE: reconcile.dfy ===
/** The reference-date filter and the inner join on the instrument code. */
module Reconcile {
  import opened Wrappers
  import opened Frames

  const DateColumn := "Data de referência"
  const KeyColumn := "Código"

  predicate OnDate(row: Row, date: string)
  {
    DateColumn in row && row[DateColumn] == Str(date)
  }

  /** The rows `df['Data de referência'] == date` selects, in their order. */
  function KeepDate(rows: seq<Row>, date: string): (r: seq<Row>)
    ensures forall i :: 0 <= i < |r| ==> r[i] in rows && OnDate(r[i], date)
  {
    if rows == [] then []
    else (if OnDate(rows[0], date) then [rows[0]] else []) + KeepDate(rows[1..], date)
  }

  /** The filter keeps every dated row, as many times as it occurs, and no other. */
  lemma {:induction false} KeepDateMultiset(rows: seq<Row>, date: string)
    ensures forall x :: multiset(KeepDate(rows, date))[x] == if OnDate(x, date) then multiset(rows)[x] else 0
  {
    if rows != [] {
      KeepDateMultiset(rows[1..], date);
      assert rows == [rows[0]] + rows[1..];
    }
  }

  /** Line 33: a missing date column is pandas' `KeyError`. */
  function FilterByDate(holdings: Table, date: string): (r: Result<Table, Failure>)
    requires holdings.Valid()
    ensures r.Ok? <==> DateColumn in holdings.columns
    ensures r.Err? ==> r.error == MissingColumn(DateColumn)
    ensures r.Ok? ==> r.value.Valid() && r.value.columns == holdings.columns
    ensures r.Ok? ==> multiset(r.value.rows) <= multiset(holdings.rows)
    ensures r.Ok? ==> forall i :: 0 <= i < |r.value.rows| ==> r.value.rows[i][DateColumn] == Str(date)
  {
    if DateColumn !in holdings.columns then Err(MissingColumn(DateColumn))
    else
      KeepDateMultiset(holdings.rows, date);
      Ok(Table(holdings.columns, KeepDate(holdings.rows, date)))
  }

  /** Right-hand columns other than the join key, in order. */
  function RightRest(rcols: seq<string>): (r: seq<string>)
    ensures ColumnSet(r) == ColumnSet(rcols) - {KeyColumn}
    ensures Distinct(rcols) ==> Distinct(r)
  {
    if rcols == [] then []
    else
      var head, rest := rcols[0], RightRest(rcols[1..]);
      assert ColumnSet(rcols) == {head} + ColumnSet(rcols[1..]);
      assert Distinct(rcols) ==> head !in ColumnSet(rcols[1..]);
      var r := (if head == KeyColumn then [] else [head]) + rest;
      assert ColumnSet(r) == (if head == KeyColumn then {} else {head}) + ColumnSet(rest);
      r
  }

  /** pandas' default suffixes: a non-key label present on both sides gets
      `_x` on the left and `_y` on the right. */
  function LeftName(c: string, rcols: seq<string>): (r: string)
    ensures r != c <==> c != KeyColumn && c in rcols
    ensures c <= r
  {
    if c != KeyColumn && c in rcols then c + "_x" else c
  }

  function RightName(c: string, lcols: seq<string>): (r: string)
    ensures r != c <==> c in lcols
    ensures c <= r
  {
    if c in lcols then c + "_y" else c
  }

  /** Labels of the merged frame: left labels, then the right labels other
      than the key. */
  function JoinColumns(lcols: seq<string>, rcols: seq<string>): (r: seq<string>)
    ensures |r| == |lcols| + |RightRest(rcols)|
    ensures forall i :: 0 <= i < |lcols| ==> r[i] == LeftName(lcols[i], rcols)
    ensures forall c :: c in lcols && (c == KeyColumn || c !in rcols) ==> c in r
  {
    LeftNames(lcols, rcols) + RightNames(RightRest(rcols), lcols)
  }

  function LeftNames(lcols: seq<string>, rcols: seq<string>): seq<string>
  {
    seq(|lcols|, i requires 0 <= i < |lcols| => LeftName(lcols[i], rcols))
  }

  function RightNames(rest: seq<string>, lcols: seq<string>): seq<string>
  {
    seq(|rest|, i requires 0 <= i < |rest| => RightName(rest[i], lcols))
  }

  function Cells(row: Row, cols: seq<string>): (r: seq<Cell>)
    requires ColumnSet(cols) <= row.Keys
    ensures |r| == |cols|
  {
    seq(|cols|, i requires 0 <= i < |cols| => row[cols[i]])
  }

  /** The cells of one merged row, in the order of `JoinColumns`. */
  function JoinCells(l: Row, r: Row, lcols: seq<string>, rcols: seq<string>): (cells: seq<Cell>)
    requires ColumnSet(lcols) <= l.Keys && ColumnSet(rcols) <= r.Keys
    ensures |cells| == |JoinColumns(lcols, rcols)|
  {
    Cells(l, lcols) + Cells(r, RightRest(rcols))
  }

  /** One merged row: the left row's cells under their (possibly suffixed)
      labels, then the right row's non-key cells. */
  function CombineRows(l: Row, r: Row, lcols: seq<string>, rcols: seq<string>): (row: Row)
    requires ColumnSet(lcols) <= l.Keys && ColumnSet(rcols) <= r.Keys
    requires Distinct(JoinColumns(lcols, rcols))
    ensures row.Keys == ColumnSet(JoinColumns(lcols, rcols))
    ensures forall i :: 0 <= i < |lcols| ==>
      LeftName(lcols[i], rcols) in row && row[LeftName(lcols[i], rcols)] == l[lcols[i]]
    ensures forall c :: c in rcols && c != KeyColumn ==>
      RightName(c, lcols) in row && row[RightName(c, lcols)] == r[c]
    ensures KeyColumn in lcols ==> KeyColumn in row && row[KeyColumn] == l[KeyColumn]
  {
    CombineLeftCells(l, r, lcols, rcols);
    CombineRightCells(l, r, lcols, rcols);
    ZipMap(JoinColumns(lcols, rcols), JoinCells(l, r, lcols, rcols))
  }

  lemma CombineLeftCells(l: Row, r: Row, lcols: seq<string>, rcols: seq<string>)
    requires ColumnSet(lcols) <= l.Keys && ColumnSet(rcols) <= r.Keys
    requires Distinct(JoinColumns(lcols, rcols))
    ensures var row := ZipMap(JoinColumns(lcols, rcols), JoinCells(l, r, lcols, rcols));
      && (forall i :: 0 <= i < |lcols| ==> LeftName(lcols[i], rcols) in row && row[LeftName(lcols[i], rcols)] == l[lcols[i]])
      && (KeyColumn in lcols ==> KeyColumn in row && row[KeyColumn] == l[KeyColumn])
  {
    var names, cells := JoinColumns(lcols, rcols), JoinCells(l, r, lcols, rcols);
    var row := ZipMap(names, cells);
    forall i | 0 <= i < |lcols|
      ensures LeftName(lcols[i], rcols) in row && row[LeftName(lcols[i], rcols)] == l[lcols[i]]
    {
      assert names[i] == LeftName(lcols[i], rcols);
      assert cells[i] == l[lcols[i]];
    }
    if KeyColumn in lcols {
      var i :| 0 <= i < |lcols| && lcols[i] == KeyColumn;
      assert LeftName(lcols[i], rcols) == KeyColumn;
    }
  }

  lemma CombineRightCells(l: Row, r: Row, lcols: seq<string>, rcols: seq<string>)
    requires ColumnSet(lcols) <= l.Keys && ColumnSet(rcols) <= r.Keys
    requires Distinct(JoinColumns(lcols, rcols))
    ensures var row := ZipMap(JoinColumns(lcols, rcols), JoinCells(l, r, lcols, rcols));
      forall c :: c in rcols && c != KeyColumn ==> RightName(c, lcols) in row && row[RightName(c, lcols)] == r[c]
  {
    var names, cells := JoinColumns(lcols, rcols), JoinCells(l, r, lcols, rcols);
    var row := ZipMap(names, cells);
    var rest := RightRest(rcols);
    forall c | c in rcols && c != KeyColumn
      ensures RightName(c, lcols) in row && row[RightName(c, lcols)] == r[c]
    {
      assert c in ColumnSet(rest);
      var k :| 0 <= k < |rest| && rest[k] == c;
      JoinNameAt(lcols, rcols, k);
      JoinCellAt(l, r, lcols, rcols, k);
      assert cells[|lcols| + k] == Cells(r, rest)[k] == r[c];
    }
  }

  /** Position `|lcols| + k` of the merged labels is the `k`-th right-hand
      non-key label. */
  lemma JoinNameAt(lcols: seq<string>, rcols: seq<string>, k: nat)
    requires k < |RightRest(rcols)|
    ensures |lcols| + k < |JoinColumns(lcols, rcols)|
    ensures JoinColumns(lcols, rcols)[|lcols| + k] == RightName(RightRest(rcols)[k], lcols)
  {
    var right := RightNames(RightRest(rcols), lcols);
    assert JoinColumns(lcols, rcols) == LeftNames(lcols, rcols) + right;
  }

  /** Position `|lcols| + k` of a merged row's cells holds the right row's
      `k`-th non-key cell. */
  lemma JoinCellAt(l: Row, r: Row, lcols: seq<string>, rcols: seq<string>, k: nat)
    requires ColumnSet(lcols) <= l.Keys && ColumnSet(rcols) <= r.Keys
    requires k < |RightRest(rcols)|
    ensures |lcols| + k < |JoinCells(l, r, lcols, rcols)|
    ensures JoinCells(l, r, lcols, rcols)[|lcols| + k] == Cells(r, RightRest(rcols))[k]
  {
    assert JoinCells(l, r, lcols, rcols) == Cells(l, lcols) + Cells(r, RightRest(rcols));
  }

  /** `p` comes before `q` in row-major order. */
  predicate PairBefore(p: (nat, nat), q: (nat, nat))
  {
    p.0 < q.0 || (p.0 == q.0 && p.1 < q.1)
  }

  /** The pairs are strictly increasing in row-major order. */
  predicate RowMajor(ps: seq<(nat, nat)>)
  {
    forall a, b :: 0 <= a < b < |ps| ==> PairBefore(ps[a], ps[b])
  }

  predicate KeysMatch(ls: seq<Row>, rs: seq<Row>, i: nat, j: nat)
    requires HasColumn(ls, KeyColumn) && HasColumn(rs, KeyColumn)
    requires i < |ls| && j < |rs|
  {
    ls[i][KeyColumn] == rs[j][KeyColumn]
  }

  /** Pairs of left row `i` with the right rows from `j` on that share its key. */
  function PairsWith(ls: seq<Row>, rs: seq<Row>, i: nat, j: nat): seq<(nat, nat)>
    requires HasColumn(ls, KeyColumn) && HasColumn(rs, KeyColumn)
    requires i < |ls| && j <= |rs|
    decreases |rs| - j
  {
    if j == |rs| then []
    else if KeysMatch(ls, rs, i, j) then [(i, j)] + PairsWith(ls, rs, i, j + 1)
    else PairsWith(ls, rs, i, j + 1)
  }

  /** The merge indexers: every matching (left, right) pair of row indices,
      left rows from `i` on, in row-major order. */
  function PairsFrom(ls: seq<Row>, rs: seq<Row>, i: nat): seq<(nat, nat)>
    requires HasColumn(ls, KeyColumn) && HasColumn(rs, KeyColumn)
    requires i <= |ls|
    decreases |ls| - i
  {
    if i == |ls| then [] else PairsWith(ls, rs, i, 0) + PairsFrom(ls, rs, i + 1)
  }

  /** Every pair for left row `i` has a matching key and a right index
      from `j` on. */
  lemma {:induction false} PairsWithSound(ls: seq<Row>, rs: seq<Row>, i: nat, j: nat)
    requires HasColumn(ls, KeyColumn) && HasColumn(rs, KeyColumn)
    requires i < |ls| && j <= |rs|
    ensures forall p :: p in PairsWith(ls, rs, i, j) ==> p.0 == i && j <= p.1 < |rs| && KeysMatch(ls, rs, p.0, p.1)
    decreases |rs| - j
  {
    if j < |rs| {
      PairsWithSound(ls, rs, i, j + 1);
    }
  }

  /** Every right row from `j` on whose key matches left row `i` is paired
      with it. */
  lemma {:induction false} PairsWithComplete(ls: seq<Row>, rs: seq<Row>, i: nat, j: nat)
    requires HasColumn(ls, KeyColumn) && HasColumn(rs, KeyColumn)
    requires i < |ls| && j <= |rs|
    ensures forall k :: j <= k < |rs| && KeysMatch(ls, rs, i, k) ==> (i, k) in PairsWith(ls, rs, i, j)
    decreases |rs| - j
  {
    if j < |rs| {
      PairsWithComplete(ls, rs, i, j + 1);
    }
  }

  /** The pairs for one left row follow the right frame's order. */
  lemma {:induction false} PairsWithOrdered(ls: seq<Row>, rs: seq<Row>, i: nat, j: nat)
    requires HasColumn(ls, KeyColumn) && HasColumn(rs, KeyColumn)
    requires i < |ls| && j <= |rs|
    ensures RowMajor(PairsWith(ls, rs, i, j))
    decreases |rs| - j
  {
    if j < |rs| {
      PairsWithOrdered(ls, rs, i, j + 1);
      PairsWithSound(ls, rs, i, j + 1);
      var rest := PairsWith(ls, rs, i, j + 1);
      assert forall b :: 0 <= b < |rest| ==> rest[b] in rest;
    }
  }

  /** Every pair from left row `i` on has a matching key and indices in
      range. */
  lemma {:induction false} PairsFromSound(ls: seq<Row>, rs: seq<Row>, i: nat)
    requires HasColumn(ls, KeyColumn) && HasColumn(rs, KeyColumn)
    requires i <= |ls|
    ensures forall p :: p in PairsFrom(ls, rs, i) ==> i <= p.0 < |ls| && p.1 < |rs| && KeysMatch(ls, rs, p.0, p.1)
    decreases |ls| - i
  {
    if i < |ls| {
      PairsWithSound(ls, rs, i, 0);
      PairsFromSound(ls, rs, i + 1);
    }
  }

  /** Every key-matching pair whose left row is `i` or later is produced. */
  lemma {:induction false} PairsFromComplete(ls: seq<Row>, rs: seq<Row>, i: nat)
    requires HasColumn(ls, KeyColumn) && HasColumn(rs, KeyColumn)
    requires i <= |ls|
    ensures forall a, b :: i <= a < |ls| && 0 <= b < |rs| && KeysMatch(ls, rs, a, b) ==> (a, b) in PairsFrom(ls, rs, i)
    decreases |ls| - i
  {
    if i < |ls| {
      PairsWithComplete(ls, rs, i, 0);
      PairsFromComplete(ls, rs, i + 1);
    }
  }

  /** The pairs come in row-major order: by left row, then by right row. */
  lemma {:induction false} PairsFromOrdered(ls: seq<Row>, rs: seq<Row>, i: nat)
    requires HasColumn(ls, KeyColumn) && HasColumn(rs, KeyColumn)
    requires i <= |ls|
    ensures RowMajor(PairsFrom(ls, rs, i))
    decreases |ls| - i
  {
    if i < |ls| {
      PairsWithSound(ls, rs, i, 0);
      PairsWithOrdered(ls, rs, i, 0);
      PairsFromSound(ls, rs, i + 1);
      PairsFromOrdered(ls, rs, i + 1);
      var here, rest := PairsWith(ls, rs, i, 0), PairsFrom(ls, rs, i + 1);
      var r := here + rest;
      forall a, b | 0 <= a < b < |r|
        ensures PairBefore(r[a], r[b])
      {
        if b < |here| {
          assert r[a] == here[a] && r[b] == here[b];
          assert PairBefore(here[a], here[b]);
        } else if a < |here| {
          assert r[a] == here[a] && here[a] in here;
          assert r[b] == rest[b - |here|] && rest[b - |here|] in rest;
          assert here[a].0 == i < rest[b - |here|].0;
        } else {
          assert r[a] == rest[a - |here|] && r[b] == rest[b - |here|];
          assert PairBefore(rest[a - |here|], rest[b - |here|]);
        }
      }
    }
  }

  /** The index pairs `pd.merge(..., how='inner')` takes rows at. */
  function JoinIndexers(ls: seq<Row>, rs: seq<Row>): (r: seq<(nat, nat)>)
    requires HasColumn(ls, KeyColumn) && HasColumn(rs, KeyColumn)
    ensures forall p :: p in r ==> p.0 < |ls| && p.1 < |rs| && KeysMatch(ls, rs, p.0, p.1)
    ensures forall a, b :: 0 <= a < |ls| && 0 <= b < |rs| && KeysMatch(ls, rs, a, b) ==> (a, b) in r
    ensures forall a, b :: 0 <= a < b < |r| ==> r[a] != r[b]
  {
    PairsFromSound(ls, rs, 0);
    PairsFromComplete(ls, rs, 0);
    PairsFromOrdered(ls, rs, 0);
    PairsFrom(ls, rs, 0)
  }

  /** The merged rows taken at a list of index pairs. */
  function TakePairs(ps: seq<(nat, nat)>, left: Table, right: Table): (r: seq<Row>)
    requires left.Valid() && right.Valid()
    requires Distinct(JoinColumns(left.columns, right.columns))
    requires forall p :: p in ps ==> p.0 < |left.rows| && p.1 < |right.rows|
    ensures |r| == |ps|
  {
    seq(|ps|, n requires 0 <= n < |ps| =>
      assert ps[n] in ps;
      CombineRows(left.rows[ps[n].0], right.rows[ps[n].1], left.columns, right.columns))
  }

  /** Merged row `n` holds the cells of left row `ps[n].0` under their left
      labels and those of right row `ps[n].1` under their right labels. */
  lemma TakePairsRow(ps: seq<(nat, nat)>, left: Table, right: Table, n: nat)
    requires left.Valid() && right.Valid()
    requires Distinct(JoinColumns(left.columns, right.columns))
    requires forall p :: p in ps ==> p.0 < |left.rows| && p.1 < |right.rows|
    requires n < |ps|
    ensures ps[n].0 < |left.rows| && ps[n].1 < |right.rows|
    ensures TakePairs(ps, left, right)[n].Keys == ColumnSet(JoinColumns(left.columns, right.columns))
    ensures forall i :: 0 <= i < |left.columns| ==>
      LeftName(left.columns[i], right.columns) in TakePairs(ps, left, right)[n]
      && TakePairs(ps, left, right)[n][LeftName(left.columns[i], right.columns)] == left.rows[ps[n].0][left.columns[i]]
    ensures forall c :: c in right.columns && c != KeyColumn ==>
      RightName(c, left.columns) in TakePairs(ps, left, right)[n]
      && TakePairs(ps, left, right)[n][RightName(c, left.columns)] == right.rows[ps[n].1][c]
  {
    assert ps[n] in ps;
  }

  /** Line 40: `pd.merge(reference, holdings, on='Código', how='inner')`.
      A key absent from either side is a `KeyError`; suffixed labels that
      collide are refused. */
  function Merge(left: Table, right: Table): (r: Result<Table, Failure>)
    requires left.Valid() && right.Valid()
    ensures r.Ok? <==> KeyColumn in left.columns && KeyColumn in right.columns
                       && Distinct(JoinColumns(left.columns, right.columns))
    ensures r.Err? ==> r.error == MissingColumn(KeyColumn) || r.error.DuplicateColumns?
    ensures r.Ok? ==> r.value.Valid() && r.value.columns == JoinColumns(left.columns, right.columns)
    ensures r.Ok? ==> |r.value.rows| == |JoinIndexers(left.rows, right.rows)|
  {
    if KeyColumn !in left.columns || KeyColumn !in right.columns then
      Err(MissingColumn(KeyColumn))
    else
      var cols := JoinColumns(left.columns, right.columns);
      if !Distinct(cols) then
        Err(DuplicateColumns(cols))
      else
        var rows := TakePairs(JoinIndexers(left.rows, right.rows), left, right);
        Ok(Table(cols, rows))
  }

  /** Every merged row comes from one matching (reference row, holding row)
      pair and carries that pair's cells. */
  lemma MergeRowFromPair(left: Table, right: Table, n: nat)
    requires left.Valid() && right.Valid()
    requires Merge(left, right).Ok?
    requires n < |Merge(left, right).value.rows|
    ensures var out, p := Merge(left, right).value.rows[n], JoinIndexers(left.rows, right.rows)[n];
      p.0 < |left.rows| && p.1 < |right.rows|
      && left.rows[p.0][KeyColumn] == right.rows[p.1][KeyColumn]
      && out[KeyColumn] == left.rows[p.0][KeyColumn]
      && (forall c :: c in left.columns ==> out[LeftName(c, right.columns)] == left.rows[p.0][c])
      && (forall c :: c in right.columns && c != KeyColumn ==> out[RightName(c, left.columns)] == right.rows[p.1][c])
  {
    var ps := JoinIndexers(left.rows, right.rows);
    assert ps[n] in ps;
    forall c | c in left.columns
      ensures Merge(left, right).value.rows[n][LeftName(c, right.columns)] == left.rows[ps[n].0][c]
    {
      var i :| 0 <= i < |left.columns| && left.columns[i] == c;
    }
  }

  /** Every matching (reference row, holding row) pair yields a merged row,
      and no pair yields two. */
  lemma MergePairsExactlyOnce(left: Table, right: Table)
    requires left.Valid() && right.Valid()
    requires Merge(left, right).Ok?
    ensures HasColumn(left.rows, KeyColumn) && HasColumn(right.rows, KeyColumn)
    ensures forall i, j ::
      0 <= i < |left.rows| && 0 <= j < |right.rows| && KeysMatch(left.rows, right.rows, i, j) ==>
        (i, j) in JoinIndexers(left.rows, right.rows)
    ensures forall a, b :: 0 <= a < b < |Merge(left, right).value.rows| ==>
      JoinIndexers(left.rows, right.rows)[a] != JoinIndexers(left.rows, right.rows)[b]
  {
  }

  /** Rows whose instrument code is `k`. */
  function CountKey(rows: seq<Row>, k: Cell): nat
    requires HasColumn(rows, KeyColumn)
  {
    if rows == [] then 0
    else (if rows[0][KeyColumn] == k then 1 else 0) + CountKey(rows[1..], k)
  }

  /** Index pairs whose left row has code `k`. */
  function CountLeftKey(ps: seq<(nat, nat)>, ls: seq<Row>, k: Cell): nat
    requires HasColumn(ls, KeyColumn)
  {
    if ps == [] then 0
    else (if ps[0].0 < |ls| && ls[ps[0].0][KeyColumn] == k then 1 else 0) + CountLeftKey(ps[1..], ls, k)
  }

  lemma {:induction false} CountLeftKeyAppend(a: seq<(nat, nat)>, b: seq<(nat, nat)>, ls: seq<Row>, k: Cell)
    requires HasColumn(ls, KeyColumn)
    ensures CountLeftKey(a + b, ls, k) == CountLeftKey(a, ls, k) + CountLeftKey(b, ls, k)
  {
    if a == [] {
      assert a + b == b;
    } else {
      assert (a + b)[1..] == a[1..] + b;
      CountLeftKeyAppend(a[1..], b, ls, k);
    }
  }

  lemma {:induction false} PairsWithCount(ls: seq<Row>, rs: seq<Row>, i: nat, j: nat, k: Cell)
    requires HasColumn(ls, KeyColumn) && HasColumn(rs, KeyColumn)
    requires i < |ls| && j <= |rs|
    ensures CountLeftKey(PairsWith(ls, rs, i, j), ls, k)
      == if ls[i][KeyColumn] == k then CountKey(rs[j..], k) else 0
    decreases |rs| - j
  {
    if j < |rs| {
      PairsWithCount(ls, rs, i, j + 1, k);
      CountKeyStep(rs, j, k);
      var rest := PairsWith(ls, rs, i, j + 1);
      if KeysMatch(ls, rs, i, j) {
        assert ([(i, j)] + rest)[1..] == rest;
      }
    }
  }

  lemma CountKeyStep(rows: seq<Row>, i: nat, k: Cell)
    requires HasColumn(rows, KeyColumn) && i < |rows|
    ensures CountKey(rows[i..], k) == (if rows[i][KeyColumn] == k then 1 else 0) + CountKey(rows[i + 1..], k)
  {
    assert rows[i..][1..] == rows[i + 1..];
  }

  /** `(b + m) * n` when the first `b <= 1` rows add `n` each. */
  lemma ProductStep(b: nat, m: nat, n: nat, sum: nat, total: nat, rest: nat)
    requires b <= 1 && sum == b + m && rest == m * n
    requires total == (if b == 1 then n else 0) + rest
    ensures total == sum * n
  {
  }

  /** Left row `i` contributes one pair per right row sharing its code. */
  lemma PairsFromCountStep(ls: seq<Row>, rs: seq<Row>, i: nat, k: Cell)
    requires HasColumn(ls, KeyColumn) && HasColumn(rs, KeyColumn)
    requires i < |ls|
    ensures CountLeftKey(PairsFrom(ls, rs, i), ls, k)
      == (if ls[i][KeyColumn] == k then CountKey(rs, k) else 0) + CountLeftKey(PairsFrom(ls, rs, i + 1), ls, k)
  {
    CountLeftKeyAppend(PairsWith(ls, rs, i, 0), PairsFrom(ls, rs, i + 1), ls, k);
    PairsWithCount(ls, rs, i, 0, k);
    assert rs[0..] == rs;
  }

  lemma {:induction false} PairsFromCount(ls: seq<Row>, rs: seq<Row>, i: nat, k: Cell)
    requires HasColumn(ls, KeyColumn) && HasColumn(rs, KeyColumn)
    requires i <= |ls|
    ensures CountLeftKey(PairsFrom(ls, rs, i), ls, k) == CountKey(ls[i..], k) * CountKey(rs, k)
    decreases |ls| - i
  {
    if i < |ls| {
      PairsFromCount(ls, rs, i + 1, k);
      PairsFromCountStep(ls, rs, i, k);
      CountKeyStep(ls, i, k);
      var b: nat := if ls[i][KeyColumn] == k then 1 else 0;
      ProductStep(b, CountKey(ls[i + 1..], k), CountKey(rs, k), CountKey(ls[i..], k),
                  CountLeftKey(PairsFrom(ls, rs, i), ls, k), CountLeftKey(PairsFrom(ls, rs, i + 1), ls, k));
    }
  }

  lemma TakePairsCount(ps: seq<(nat, nat)>, left: Table, right: Table, k: Cell)
    requires left.Valid() && right.Valid() && KeyColumn in left.columns
    requires Distinct(JoinColumns(left.columns, right.columns))
    requires forall p :: p in ps ==> p.0 < |left.rows| && p.1 < |right.rows|
    ensures HasColumn(TakePairs(ps, left, right), KeyColumn)
    ensures HasColumn(left.rows, KeyColumn)
    ensures CountKey(TakePairs(ps, left, right), k) == CountLeftKey(ps, left.rows, k)
  {
    var out := TakePairs(ps, left, right);
    forall n | 0 <= n < |ps|
      ensures ps[n].0 < |left.rows| && KeyColumn in out[n] && out[n][KeyColumn] == left.rows[ps[n].0][KeyColumn]
    {
      assert ps[n] in ps;
    }
    CountMatchingKeys(out, ps, left.rows, k);
  }

  /** Rows that carry, one for one, the codes of the left rows the pairs
      name are counted like those pairs. */
  lemma {:induction false} CountMatchingKeys(rows: seq<Row>, ps: seq<(nat, nat)>, ls: seq<Row>, k: Cell)
    requires HasColumn(rows, KeyColumn) && HasColumn(ls, KeyColumn) && |rows| == |ps|
    requires forall n :: 0 <= n < |ps| ==> ps[n].0 < |ls| && rows[n][KeyColumn] == ls[ps[n].0][KeyColumn]
    ensures CountKey(rows, k) == CountLeftKey(ps, ls, k)
  {
    if ps != [] {
      assert forall n :: 0 <= n < |ps| - 1 ==> rows[1..][n] == rows[n + 1] && ps[1..][n] == ps[n + 1];
      CountMatchingKeys(rows[1..], ps[1..], ls, k);
    }
  }

  /** A code found m times among the reference rows and n times among the
      holdings yields m·n merged rows. */
  lemma JoinCount(left: Table, right: Table, k: Cell)
    requires left.Valid() && right.Valid()
    requires Merge(left, right).Ok?
    ensures HasColumn(left.rows, KeyColumn) && HasColumn(right.rows, KeyColumn)
    ensures HasColumn(Merge(left, right).value.rows, KeyColumn)
    ensures CountKey(Merge(left, right).value.rows, k) == CountKey(left.rows, k) * CountKey(right.rows, k)
  {
    var ps := JoinIndexers(left.rows, right.rows);
    TakePairsCount(ps, left, right, k);
    PairsFromCount(left.rows, right.rows, 0, k);
    assert left.rows[0..] == left.rows;
  }

  /** Holdings dated `date` whose instrument code is `k`. */
  function CountOnDate(rows: seq<Row>, date: string, k: Cell): nat
    requires HasColumn(rows, KeyColumn)
  {
    if rows == [] then 0
    else (if OnDate(rows[0], date) && rows[0][KeyColumn] == k then 1 else 0) + CountOnDate(rows[1..], date, k)
  }

  lemma {:induction false} KeepDateCount(rows: seq<Row>, date: string, k: Cell)
    requires HasColumn(rows, KeyColumn)
    ensures HasColumn(KeepDate(rows, date), KeyColumn)
    ensures CountKey(KeepDate(rows, date), k) == CountOnDate(rows, date, k)
  {
    if rows != [] {
      KeepDateCount(rows[1..], date, k);
      var rest := KeepDate(rows[1..], date);
      if OnDate(rows[0], date) {
        assert ([rows[0]] + rest)[1..] == rest;
      } else {
        assert [] + rest == rest;
      }
    }
  }

  /** Lines 33 and 40: filter the holdings on the reference date, then merge
      the reference table with them. */
  function JoinOnDate(reference: Table, holdings: Table, date: string): (r: Result<Table, Failure>)
    requires reference.Valid() && holdings.Valid()
    ensures r.Ok? ==> r.value.Valid()
    ensures r.Ok? <==>
      && DateColumn in holdings.columns
      && KeyColumn in reference.columns
      && KeyColumn in holdings.columns
      && Distinct(JoinColumns(reference.columns, holdings.columns))
  {
    match FilterByDate(holdings, date)
    case Err(e) => Err(e)
    case Ok(dated) => Merge(reference, dated)
  }

  /** The joined table has one row per pair (reference row, holding row on
      `date`) sharing a code: a code found m times among the reference rows
      and n times among that day's holdings yields m·n rows. */
  lemma ReconcileCount(reference: Table, holdings: Table, date: string, k: Cell)
    requires reference.Valid() && holdings.Valid()
    requires JoinOnDate(reference, holdings, date).Ok?
    ensures HasColumn(reference.rows, KeyColumn) && HasColumn(holdings.rows, KeyColumn)
    ensures HasColumn(JoinOnDate(reference, holdings, date).value.rows, KeyColumn)
    ensures CountKey(JoinOnDate(reference, holdings, date).value.rows, k)
      == CountKey(reference.rows, k) * CountOnDate(holdings.rows, date, k)
  {
    var dated := FilterByDate(holdings, date).value;
    JoinCount(reference, dated, k);
    KeepDateCount(holdings.rows, date, k);
  }

  /** No shared code, no rows: pandas returns an empty frame, not an error. */
  lemma ReconcileDisjointEmpty(reference: Table, holdings: Table, date: string)
    requires reference.Valid() && holdings.Valid()
    requires JoinOnDate(reference, holdings, date).Ok?
    requires forall i, j :: 0 <= i < |reference.rows| && 0 <= j < |holdings.rows| && OnDate(holdings.rows[j], date) ==>
      reference.rows[i][KeyColumn] != holdings.rows[j][KeyColumn]
    ensures JoinOnDate(reference, holdings, date).value.rows == []
  {
    var dated := FilterByDate(holdings, date).value;
    var ps := JoinIndexers(reference.rows, dated.rows);
    if ps != [] {
      PairKeyHeld(reference, holdings, date, 0);
      assert false;
    }
  }

  /** The `n`-th pair of the merge joins a reference row to a holding whose
      code is the same. */
  lemma PairKeyHeld(reference: Table, holdings: Table, date: string, n: nat)
    requires reference.Valid() && holdings.Valid()
    requires JoinOnDate(reference, holdings, date).Ok?
    requires n < |JoinIndexers(reference.rows, FilterByDate(holdings, date).value.rows)|
    ensures var p := JoinIndexers(reference.rows, FilterByDate(holdings, date).value.rows)[n];
      p.0 < |reference.rows|
      && exists j :: 0 <= j < |holdings.rows| && OnDate(holdings.rows[j], date)
                     && holdings.rows[j][KeyColumn] == reference.rows[p.0][KeyColumn]
  {
    var dated := FilterByDate(holdings, date).value;
    var p := JoinIndexers(reference.rows, dated.rows)[n];
    assert p in JoinIndexers(reference.rows, dated.rows);
    var x := dated.rows[p.1];
    assert x in multiset(dated.rows);
    assert x in multiset(holdings.rows);
    var j :| 0 <= j < |holdings.rows| && holdings.rows[j] == x;
    assert OnDate(x, date);
  }
}

=== FILE: weighting.dfy ===
/** Lines 55-59: each row's share of the total market value, then the rows
    ordered by market value, largest first. */
module Weighting {
  import opened Wrappers
  import opened Frames

  const MarketValueColumn := "Valor Mercado Posição Final"
  const WeightColumn := "% Valor Mercado"

  /** A column pandas can sum and divide: numbers and NaN only. */
  predicate NumericColumn(rows: seq<Row>, c: string)
  {
    forall i :: 0 <= i < |rows| ==> c in rows[i] && !rows[i][c].Str?
  }

  /** One cell of `value / total`; NaN stays NaN. */
  function Share(v: Cell, total: real): Cell
    requires total != 0.0
  {
    if v.Num? then Num(v.x / total) else Missing
  }

  function WeightRows(rows: seq<Row>, total: real): (r: seq<Row>)
    requires HasColumn(rows, MarketValueColumn) && total != 0.0
    ensures |r| == |rows|
    ensures forall i :: 0 <= i < |r| ==> r[i] == rows[i][WeightColumn := Share(rows[i][MarketValueColumn], total)]
  {
    if rows == [] then []
    else [rows[0][WeightColumn := Share(rows[0][MarketValueColumn], total)]] + WeightRows(rows[1..], total)
  }

  /** The column-sum over the weight column is the market-value sum scaled by
      the total. */
  lemma {:induction false} WeightRowsSum(rows: seq<Row>, total: real)
    requires HasColumn(rows, MarketValueColumn) && total != 0.0
    ensures HasColumn(WeightRows(rows, total), WeightColumn)
    ensures ColumnSum(WeightRows(rows, total), WeightColumn) == ColumnSum(rows, MarketValueColumn) / total
  {
    if rows != [] {
      var w := WeightRows(rows, total);
      WeightRowsSum(rows[1..], total);
      assert w[1..] == WeightRows(rows[1..], total);
      var a, b := NumOrZero(rows[0][MarketValueColumn]), ColumnSum(rows[1..], MarketValueColumn);
      assert NumOrZero(w[0][WeightColumn]) == a / total;
      AddQuotients(a, b, total);
    }
  }

  lemma AddQuotients(a: real, b: real, d: real)
    requires d != 0.0
    ensures a / d + b / d == (a + b) / d
  {
  }

  /** Lines 55-56: `total = df[mv].sum()` (NaN skipped), then
      `df['% Valor Mercado'] = df[mv] / total`. A missing column is a
      `KeyError`, text cells a `TypeError`; a zero total, where pandas gives
      inf/NaN, is reported. Each row's weight is its market value over the
      total and nothing else changes. */
  function AddWeights(t: Table): (r: Result<Table, Failure>)
    requires t.Valid()
    ensures r.Ok? <==> MarketValueColumn in t.columns && NumericColumn(t.rows, MarketValueColumn)
                       && ColumnSum(t.rows, MarketValueColumn) != 0.0
    ensures r.Err? ==> r.error in {MissingColumn(MarketValueColumn), NotNumeric(MarketValueColumn), ZeroMarketValue}
    ensures r.Ok? ==> r.value.Valid() && |r.value.rows| == |t.rows|
    ensures r.Ok? ==> forall c :: c in r.value.columns <==> c in t.columns || c == WeightColumn
    ensures r.Ok? ==> forall i, c :: 0 <= i < |t.rows| && c in t.columns && c != WeightColumn ==>
      r.value.rows[i][c] == t.rows[i][c]
    ensures r.Ok? ==> forall i :: 0 <= i < |t.rows| ==>
      r.value.rows[i][WeightColumn] ==
        match t.rows[i][MarketValueColumn]
        case Num(v) => Num(v / ColumnSum(t.rows, MarketValueColumn))
        case _ => Missing
  {
    if MarketValueColumn !in t.columns then Err(MissingColumn(MarketValueColumn))
    else if !NumericColumn(t.rows, MarketValueColumn) then Err(NotNumeric(MarketValueColumn))
    else
      var total := ColumnSum(t.rows, MarketValueColumn);
      if total == 0.0 then Err(ZeroMarketValue)
      else
        var cols := if WeightColumn in t.columns then t.columns else t.columns + [WeightColumn];
        assert ColumnSet(cols) == ColumnSet(t.columns) + {WeightColumn};
        Ok(Table(cols, WeightRows(t.rows, total)))
  }

  /** The weights sum to exactly 1 (NaN weights skipped, as pandas' sum does). */
  lemma WeightsSumToOne(t: Table)
    requires t.Valid() && AddWeights(t).Ok?
    ensures HasColumn(AddWeights(t).value.rows, WeightColumn)
    ensures ColumnSum(AddWeights(t).value.rows, WeightColumn) == 1.0
  {
    var total := ColumnSum(t.rows, MarketValueColumn);
    assert AddWeights(t).value.rows == WeightRows(t.rows, total);
    WeightRowsSumToOne(t.rows, total);
  }

  lemma WeightRowsSumToOne(rows: seq<Row>, total: real)
    requires HasColumn(rows, MarketValueColumn) && total == ColumnSum(rows, MarketValueColumn) && total != 0.0
    ensures HasColumn(WeightRows(rows, total), WeightColumn)
    ensures ColumnSum(WeightRows(rows, total), WeightColumn) == 1.0
  {
    WeightRowsSum(rows, total);
    SelfQuotient(total);
  }

  lemma SelfQuotient(d: real)
    requires d != 0.0
    ensures d / d == 1.0
  {
  }

  /** With no negative market value, every term is at most the total. */
  lemma {:induction false} TermBelowSum(rows: seq<Row>, i: nat)
    requires HasColumn(rows, MarketValueColumn) && i < |rows|
    requires forall j :: 0 <= j < |rows| ==> NumOrZero(rows[j][MarketValueColumn]) >= 0.0
    ensures 0.0 <= NumOrZero(rows[i][MarketValueColumn]) <= ColumnSum(rows, MarketValueColumn)
  {
    NonNegativeSum(rows[1..]);
    if i > 0 {
      TermBelowSum(rows[1..], i - 1);
    }
  }

  lemma {:induction false} NonNegativeSum(rows: seq<Row>)
    requires HasColumn(rows, MarketValueColumn)
    requires forall j :: 0 <= j < |rows| ==> NumOrZero(rows[j][MarketValueColumn]) >= 0.0
    ensures ColumnSum(rows, MarketValueColumn) >= 0.0
  {
    if rows != [] {
      NonNegativeSum(rows[1..]);
    }
  }

  /** With no negative market value, every weight lies in [0, 1]. */
  lemma WeightsInUnitInterval(t: Table)
    requires t.Valid() && AddWeights(t).Ok?
    requires forall i :: 0 <= i < |t.rows| ==> NumOrZero(t.rows[i][MarketValueColumn]) >= 0.0
    ensures forall i :: 0 <= i < |t.rows| ==>
      0.0 <= NumOrZero(AddWeights(t).value.rows[i][WeightColumn]) <= 1.0
  {
    var total := ColumnSum(t.rows, MarketValueColumn);
    NonNegativeSum(t.rows);
    forall i | 0 <= i < |t.rows|
      ensures 0.0 <= NumOrZero(AddWeights(t).value.rows[i][WeightColumn]) <= 1.0
    {
      TermBelowSum(t.rows, i);
      UnitFraction(NumOrZero(t.rows[i][MarketValueColumn]), total);
    }
  }

  lemma UnitFraction(a: real, b: real)
    requires 0.0 <= a <= b && b != 0.0
    ensures 0.0 <= a / b <= 1.0
  {
  }

  /** `a` may stand before `b` under `sort_values(ascending=False)`: larger
      numbers first, NaN last. */
  predicate NotAfter(a: Cell, b: Cell)
  {
    !b.Num? || (a.Num? && a.x >= b.x)
  }

  predicate SortedByMarketValue(rows: seq<Row>)
    requires HasColumn(rows, MarketValueColumn)
  {
    forall i, j :: 0 <= i < j < |rows| ==> NotAfter(rows[i][MarketValueColumn], rows[j][MarketValueColumn])
  }

  /** One insertion-sort step: `x` goes before the first row it may stand
      before. */
  function InsertByMarketValue(x: Row, s: seq<Row>): (r: seq<Row>)
    requires MarketValueColumn in x && HasColumn(s, MarketValueColumn)
    ensures multiset(r) == multiset(s) + multiset{x}
    ensures HasColumn(r, MarketValueColumn)
  {
    if s == [] || NotAfter(x[MarketValueColumn], s[0][MarketValueColumn]) then
      [x] + s
    else
      var rest := InsertByMarketValue(x, s[1..]);
      assert s == [s[0]] + s[1..];
      [s[0]] + rest
  }

  /** Inserting into rows sorted by market value keeps them sorted. */
  lemma {:induction false} InsertKeepsSorted(x: Row, s: seq<Row>)
    requires MarketValueColumn in x && HasColumn(s, MarketValueColumn)
    requires SortedByMarketValue(s)
    ensures SortedByMarketValue(InsertByMarketValue(x, s))
  {
    var v := x[MarketValueColumn];
    if s == [] || NotAfter(v, s[0][MarketValueColumn]) {
      assert forall j :: 0 <= j < |s| ==> NotAfter(s[0][MarketValueColumn], s[j][MarketValueColumn]);
      SortedCons(x, s);
    } else {
      var rest := InsertByMarketValue(x, s[1..]);
      InsertKeepsSorted(x, s[1..]);
      forall j | 0 <= j < |rest|
        ensures NotAfter(s[0][MarketValueColumn], rest[j][MarketValueColumn])
      {
        assert rest[j] in multiset(rest);
        if rest[j] != x {
          assert rest[j] in s[1..];
        }
      }
      SortedCons(s[0], rest);
    }
  }

  lemma SortedCons(a: Row, s: seq<Row>)
    requires MarketValueColumn in a && HasColumn(s, MarketValueColumn)
    requires SortedByMarketValue(s)
    requires forall j :: 0 <= j < |s| ==> NotAfter(a[MarketValueColumn], s[j][MarketValueColumn])
    ensures HasColumn([a] + s, MarketValueColumn) && SortedByMarketValue([a] + s)
  {
    var r := [a] + s;
    assert forall j :: 0 < j < |r| ==> r[j] == s[j - 1];
  }

  /** Line 59: `sort_values(by=mv, ascending=False)`: a permutation of the
      rows whose market values never increase, NaN last. */
  function SortByMarketValue(rows: seq<Row>): (r: seq<Row>)
    requires HasColumn(rows, MarketValueColumn)
    ensures multiset(r) == multiset(rows)
    ensures |r| == |rows|
    ensures HasColumn(r, MarketValueColumn)
    ensures SortedByMarketValue(r)
  {
    if rows == [] then []
    else
      assert rows == [rows[0]] + rows[1..];
      InsertKeepsSorted(rows[0], SortByMarketValue(rows[1..]));
      InsertByMarketValue(rows[0], SortByMarketValue(rows[1..]))
  }
}

=== FILE: wrappers.dfy ===
/** Option and Result, used for the "no number found" outcome of the rate
    scanner and for the pipeline's error outcomes. */
module Wrappers {

  datatype Option<+T> = None | Some(value: T)

  datatype Result<+T, +E> = Ok(value: T) | Err(error: E)
}
